=== FILE: README.md ===
# Command history of scunningham/readline, modelled in Dafny

This project models the history engine of the `readline` line editor. It has two parts.

**The in-memory history store** (`history.go`, type `opHistory`) holds:
- an ordered list of history items (`hisItem`);
- a cursor onto the list;
- a version counter that decides whether an item shows its draft or its committed text;
- an optional writer that persists committed lines;
- an enable switch.

Its operations are:
- New, which commits or collapses the line just entered;
- Update and Push;
- Compact, which trims the list to the configured limit;
- Revert;
- Prev and Next, for navigation;
- FindBck and FindFwd, for incremental search;
- Init, which loads the persisted lines;
- Close, Reset, Disable and Enable.

**The persistent log** (`historyFile.go`, type `historyFile`) is a text file with one line per record. Its operations are:
- Load reads the file with a sliding window of the newest `limit` lines. When the read succeeded, the limit is positive and the file holds more records than `limit`, Load rewrites it through a temporary file and a rename.
- Append opens the file lazily in append mode and writes the trimmed line with its newline in one write.
- Close closes the append descriptor.

## Files

The model is split into modules:
- `io.dfy` (`Io`): the outcome of an I/O step (`Ok` or `Fail` with a kind), `Result` and `Option`.
- `seqs.dfy` (`Seqs`): two sequence facts.
- `runes.dfy` (`Runes`): Go's `unicode.IsSpace` and `strings.TrimSpace`, and first and last occurrence of a pattern with optional case folding. The history searches use `runes.IndexAllEx` and `runes.IndexAllBckEx`, which these model.
- `log_format.dfy` (`LogFormat`): the log file as text. It covers splitting into newline-terminated records, the lines a load keeps, the sliding window, and serialisation.
- `history_file.dfy` (`HistoryLog`): the log operations over a file system, as follows.
  - The file system is a map from paths to contents, held by a `Disk` object.
  - `_load` and `_rewrite` are methods with loops, each proved against a specification function (`LoadSpec`, `RewriteSpec`).
  - `historyFile` is the class `HistoryFile`, whose `fdOpen` field stands for the append descriptor.
- `history_model.dfy` (`HistoryModel`): the store as a value (`Store`: items, cursor, version), with one specification function per operation and the lemmas about them.
- `history.dfy` (`History`): the class `OpHistory`. Its fields are the items, the cursor, the version, the enable switch, whether a writer is attached, the limit, the fold flag, and a ghost trace of the calls made to the writer. Each method updates these fields, mirroring the Go code, and is proved to produce the state the matching `HistoryModel` function describes.
- `startup.dfy` (`Startup`): the two halves together. An `opHistory` whose writer is a `historyFile` starts from the newest lines of the log.

## How the model represents things

- **The item list.** The Go `container/list` becomes a sequence of items. The cursor is one of three things:
  - no element;
  - the element at an index;
  - a removed element. When `Compact` drops the item under the cursor, Go keeps the removed `*list.Element`. A later `Update` still writes through it (history.go:261-272), and `New` reads its draft before moving the cursor to the last item (history.go:231-237). It has no neighbours.
- **The writer.** The writer (`HistoryWriter`) is a collaborator. `OpHistory` keeps two things about it:
  - whether one is attached;
  - a trace of the calls made to it.
  
  The writer's answers are method parameters. The store's contracts state exactly which `Load`, `Append` and `Close` calls it makes, with what argument, and how it reacts to each answer. The configuration choice in `initHistory` (a custom writer, no file, or a history file) is one parameter: whether a writer is configured.
- **Operating-system failures.** Every point where the operating system can fail is a fault parameter:
  - the open;
  - the `n`-th `ReadString`;
  - the `n`-th buffered write;
  - the flush;
  - the rename;
  - the append's open and write;
  - the close.
- **The buffered reader.** `bufio.Reader.ReadString('\n')` yields the newline-terminated records of the file in order. An unterminated tail ends with `io.EOF` and is dropped, as `_load` does.

## Behaviour of the code the model keeps

- **Compact with a limit of zero or less.** A limit of zero or less empties the list: `Compact` (history.go:87-91) removes items while the list is not empty. `AfterCompact` states that outcome, and `New` then holds only the placeholder.
- **The list can hold `limit + 1` items.** `New` and `initHistory` push the empty placeholder after the last `Compact` (history.go:81-82, 243-245). The model proves the bound `limit + 1` (`NewLengthBound`), not `limit`.
- **HistoryFile.Close is not idempotent on failure.** When the descriptor's close fails, `Close` (historyFile.go:61-63) keeps the descriptor. A later `Close` tries again.
- **A missing history file is an error.** When a file is configured but missing, `_load`'s open fails and `Init` returns the error (historyFile.go:84-87, history.go:70-74). The writer stays attached after that failure, so a later `Init` does nothing. The list stays empty, so the first line entered afterwards is committed through Update's Push branch (history.go:256-259) and is never appended to the log (`FirstLineNotAppended`).
- **Embedded newlines.** A line with an embedded newline is appended as is (historyFile.go:48). It is read back as two records, so the append lemmas require a line without `'\n'`.
- **An unterminated log tail.** If the log ends without a newline, the next append glues its line onto that tail. The append lemmas require a newline-terminated log.

## Model

| member | source | states |
|---|---|---|
| HistoryModel.Fresh | history.go:279 | the item Push creates: the text as committed text, version 0, no draft |
| HistoryModel.Clean | history.go:14-17 | both the committed text and the draft emptied, the version stamp kept |
| HistoryModel.Inv | history.go:25-32 | the store invariant every operation keeps: the version is not negative, no item's stamp is newer than it, an index cursor lies inside the list, and a nil cursor means an empty list |
| HistoryModel.Show | history.go:148-154 | the draft when the item's stamp equals the version, else the committed text |
| History.OpHistory.ShowItem | history.go:148-154 | `Show` of the item at the store's current version |
| HistoryModel.AfterPush | history.go:277-281 | Push keeps the store's invariant (cursor inside the list, no stamp newer than the version) |
| HistoryModel.PushAppendsOne | history.go:277-281 | Push appends exactly one item (the text, version 0, no draft), leaves the earlier items unchanged and moves the cursor to the new item |
| HistoryModel.Shift | history.go:88-89 | what removing the first `k` elements does to the cursor: an index cursor on a removed element keeps that element, detached; a later one moves down by `k`; nil and detached cursors stay |
| HistoryModel.AfterCompact | history.go:87-91 | Compact keeps the newest `Kept(n, limit)` items, in order, and at most `limit` of them; a limit of zero or less empties the list; a nil or detached cursor is left as it was; the invariant and the version are kept |
| HistoryModel.CompactFits | history.go:87-91 | a list already within a positive limit is left unchanged |
| HistoryModel.CompactKeepsCursorItem | history.go:87-91 | after Compact the cursor still designates the same item, either at its new index or as the removed element |
| History.OpHistory.Compact | history.go:87-91 | the loop that removes the front item produces `AfterCompact` of the old state |
| HistoryModel.AfterUpdate | history.go:254-275 | Update keeps the invariant and the version, and the list fits the limit afterwards |
| HistoryModel.Stamp | history.go:261-271 | the cursor's item after Update: stamped with the version, with the text as committed text on a commit and as draft otherwise |
| HistoryModel.UpdateAppends | history.go:256-268 | Update passes the text to the writer's Append only on a commit through a non-nil cursor; the Push branch never appends |
| HistoryModel.CommitWritesCursorItem | history.go:261-268 | on a list within the limit, a commit stores the text as the cursor item's committed text, stamps it with the current version and changes no other item |
| HistoryModel.DraftWritesCursorItem | history.go:261-273 | on a list within the limit, a draft stores the text only as the cursor item's draft with the current stamp and changes no other item |
| HistoryModel.DraftKeepsSources | history.go:269-273 | a draft never changes any committed text beyond what Compact removes |
| History.OpHistory.Update | history.go:254-275 | the new state is `AfterUpdate` of the old one; the writer's Append is called with the text exactly when committing through an existing cursor with a writer attached, and its error is returned |
| History.OpHistory.Push | history.go:277-281 | the new state is `AfterPush` of the old one |
| HistoryModel.WithCursorItem | history.go:272 | the item is written under the cursor: at an index it replaces that item and every other item and the cursor stay; a removed element is replaced and the list stays; the version is kept, and the invariant when the item's stamp is not newer than the version |
| HistoryModel.IsResubmission | history.go:210-213 | the text equals the committed text of the item before the last one |
| HistoryModel.Collapses | history.go:210-228 | New adds no item: a resubmission, or an empty line on a non-empty list |
| HistoryModel.AfterCollapse | history.go:210-228 | a resubmission or an empty line moves the cursor to the last item, cleans it, bumps the version and keeps every other item |
| HistoryModel.CommitTarget | history.go:231-238 | the store New hands to Update has the same items, with the cursor on the last item |
| HistoryModel.AfterCommit | history.go:231-245 | a commit ends with the version bumped and the cursor on the last item |
| HistoryModel.BumpAndPush | history.go:243-245 | the version goes up by one and one empty item is appended under the cursor |
| HistoryModel.AfterNew | history.go:199-247 | New keeps the invariant, bumps the version by one and leaves the cursor on the last item |
| HistoryModel.NewEndsOnEmptyLine | history.go:199-247 | after New the cursor item has no committed text and no draft and shows nothing |
| HistoryModel.NewCollapse | history.go:210-228 | a collapsing New adds no item, keeps all but the last item and cleans the last |
| HistoryModel.NewCommits | history.go:199-247 | a committing New, including the first one on an empty store, stores the committed line in the item before a fresh placeholder when the limit is positive; with a limit of zero or less only the placeholder remains |
| HistoryModel.CommitIntoEmpty | history.go:256-259 | a commit with no item yet pushes the line, and a positive limit keeps it |
| HistoryModel.CommitIntoLast | history.go:261-273 | a commit through the cursor on the last item leaves the line as the last item's committed text |
| HistoryModel.NewCommittedLine | history.go:231-241 | the committed line is the entered text when the cursor is on the last item (or there is none), and otherwise the navigated item's raw draft |
| HistoryModel.CommittedLine | history.go:231-241 | the line New hands to Update: the entered text, or the navigated item's draft |
| HistoryModel.NewAppends | history.go:240-241 | the line New passes to the writer's Append: none on a collapse, else the committed line when Update has a cursor to commit through |
| HistoryModel.NewCommitsStaleDraft | history.go:231-238 | an item showing "old" with a stale draft "draft" commits "draft", neither the shown nor the typed text |
| HistoryModel.FirstLineNotAppended | history.go:254-259 | on an empty list, as an Init that failed leaves it, New keeps the line in memory through the Push branch and never calls Append |
| HistoryModel.NewLengthBound | history.go:199-247 | New never leaves more than `limit + 1` items (none beyond the placeholder when the limit is not positive) |
| HistoryModel.NewEmptyTwice | history.go:222-228 | New with an empty line twice leaves the same items as once |
| HistoryModel.ResubmitDoesNotDuplicate | history.go:210-219 | entering the previous command again does not add an item |
| History.OpHistory.New | history.go:199-247 | disabled: nothing changes; enabled: the new state is `AfterNew` of the old one, and the writer gets exactly one Append of the committed line when a line is committed and a writer is attached |
| History.OpHistory.CommitLine | history.go:240-245 | Update with commit, then the version bump and the placeholder push |
| HistoryModel.AfterRevert | history.go:249-252 | Revert keeps the items, bumps the version, puts the cursor on the last item (nil on an empty list) and keeps the invariant |
| HistoryModel.RevertShowsSources | history.go:249-252 | after Revert every item shows its committed text |
| HistoryModel.DraftThenRevert | history.go:249-275 | a draft through the cursor followed by Revert leaves every item that survives the compaction, including on the `limit + 1` list New leaves, showing its original committed text |
| HistoryModel.DraftRevertSources | history.go:249-275 | after a draft through the cursor and a Revert, the committed texts are the original ones that survive compaction, and every item shows its committed text |
| HistoryModel.ShowsShiftedSources | history.go:249-252 | items showing their committed texts, which are the originals from position `k` on, show the original texts at the shifted positions |
| History.OpHistory.Revert | history.go:249-252 | the new state is `AfterRevert` of the old one, and every item shows its committed text |
| HistoryModel.AfterPrev | history.go:156-166 | Prev moves the cursor one item back and shows that item's text exactly when such an item exists, else nothing changes and it answers nil |
| HistoryModel.AfterNext | history.go:168-179 | Next moves one item forward and shows its text with `true` exactly when such an item exists, else nothing changes and it answers empty with `false` |
| HistoryModel.PrevThenNext | history.go:156-179 | a successful Prev followed by Next restores the state and shows the original item |
| HistoryModel.NextThenPrev | history.go:156-179 | a successful Next followed by Prev restores the state and shows the original item |
| History.OpHistory.Prev | history.go:156-166 | the new cursor and answer are those of `AfterPrev` |
| History.OpHistory.Next | history.go:168-179 | the new cursor and answers are those of `AfterNext` |
| HistoryModel.BckCut | history.go:103-105 | the number of runes FindBck searches in the cursor's item: `start`, plus the pattern's length on a new search |
| HistoryModel.BckText | history.go:102-110 | the text FindBck searches in an element: the shown text, cut to its first `cut` runes in the cursor's item when it is that long |
| HistoryModel.BckHit | history.go:102-111 | FindBck's answer for one element: the last occurrence of the pattern in that text, or -1 |
| HistoryModel.FwdCut | history.go:123-128 | where FindFwd starts in the cursor's item: `start`, less the pattern's length and not below 0 on a new search |
| HistoryModel.FwdHit | history.go:122-142 | FindFwd's answer for one element: the first occurrence; in the cursor's item searched from `cut`, skipped when `cut` is past its last rune, and reported with `cut` added |
| HistoryModel.BckHitMeaning | history.go:102-111 | the backward hit in an element is the last match of the pattern that ends within the searched window of its shown text |
| HistoryModel.FwdHitMeaning | history.go:122-141 | the forward hit in an element is the first match at or after the cut, reported relative to the whole shown text |
| History.OpHistory.FindBck | history.go:100-118 | returns the nearest element at or before the cursor whose shown text matches, with the offset of its last match; every element it passed has no match; (-1, nil) when none matches |
| History.OpHistory.FindFwd | history.go:120-146 | returns the nearest element at or after the cursor whose shown text matches, with the offset of its first match; every element it passed has no match; (-1, nil) when none matches |
| HistoryModel.BumpKeepsInv | history.go:81 | bumping the version keeps the invariant |
| HistoryModel.PushAll | history.go:76-79 | each loaded line, oldest first, pushed and then compacted |
| HistoryModel.AfterInit | history.go:76-82 | the success path of initHistory: push all lines, bump the version, push the empty placeholder |
| HistoryModel.PushAllSnoc | history.go:76-79 | loading one more line is one more Push then Compact |
| HistoryModel.PushAllInv | history.go:76-79 | the load loop keeps the invariant and the version |
| HistoryModel.PushAllFits | history.go:76-79 | lines that fit under the limit are appended as fresh items in order |
| HistoryModel.PushAllKeepsNewest | history.go:76-79 | starting from an empty list and with a positive limit, the load loop keeps exactly the newest `limit` lines, in order |
| HistoryModel.KeepsNewestStep | history.go:76-79 | one more Push and Compact keeps the newest lines that fit |
| HistoryModel.InitFromLog | history.go:59-85 | Init on an empty store with lines that fit: the lines in order, then the empty placeholder under the cursor, and each line shows itself |
| HistoryModel.FreshItems | history.go:76-79 | one fresh item per line, in order |
| History.OpHistory.PushLines | history.go:76-79 | the loop produces `PushAll` of the old state |
| History.OpHistory.InitHistory | history.go:59-85 | without a configured writer nothing changes; otherwise the writer is attached and Load is called; a Load error is returned with the state unchanged; on success the state is `AfterInit` |
| History.OpHistory.Init | history.go:52-57 | Init does nothing when a writer is already attached, else behaves as initHistory |
| History.OpHistory.Close | history.go:93-98 | the writer's Close is called once, if a writer is attached, and the writer is detached |
| History.OpHistory.Reset | history.go:43-46 | the list is emptied and the cursor cleared |
| History.OpHistory.Disable | history.go:182-184 | recording is switched off |
| History.OpHistory.Enable | history.go:187-189 | recording is switched on |
| History.OpHistory.constructor | history.go:34-41 | a new store is empty, enabled, with version 0 and no writer |
| History.OpHistory.IsHistoryClosed | history.go:48-50 | true exactly when no writer is attached |
| Runes.IsSpace | historyFile.go:101 | the white-space runes `strings.TrimSpace` removes: tab to carriage return, space, U+0085, U+00A0, U+1680, U+2000 to U+200A, U+2028, U+2029, U+202F, U+205F and U+3000 |
| Runes.TrimSpace | historyFile.go:101 | trimming never lengthens the text |
| Runes.TrimSpaceTrimmed | historyFile.go:101 | the trimmed text has no white space at either end |
| Runes.TrimSpaceIsSlice | historyFile.go:101 | the trimmed text is the slice of the input after its leading white space |
| Runes.TrimSpaceDropsSpace | historyFile.go:101 | everything trimming drops, at either end, is white space |
| Runes.TrimSpaceOfTerminated | historyFile.go:96-101 | a trimmed, non-empty line read back with its newline trims to itself |
| Runes.FirstIndex | history.go:136 | the first occurrence of the pattern (with optional case folding), or -1 exactly when there is none |
| Runes.LastIndex | history.go:111 | the last occurrence of the pattern, or -1 exactly when there is none |
| Runes.MatchInSuffix | history.go:131-141 | a match in the text after `start` is a match in the whole text shifted by `start` |
| Runes.MatchInPrefix | history.go:107-111 | a match in the first `start` runes is a match in the whole text that ends within them |
| Runes.FoldDecidesCase | history.go:111 | with folding "FOO" is found in "foo2"; without folding it is not |
| LogFormat.RecordsAreRecords | historyFile.go:94-99 | every record the reader yields is newline-terminated with no other newline |
| LogFormat.Records | historyFile.go:94-99 | the successive `ReadString('\n')` results: each piece up to and including a newline, in order; an unterminated tail is not a record |
| LogFormat.KeptLines | historyFile.go:100-106 | no more lines are kept than records are read |
| LogFormat.KeptLinesWellFormed | historyFile.go:100-106 | every kept line is non-empty, trimmed and free of newlines |
| LogFormat.RecordLineWellFormed | historyFile.go:96-101 | a record's trimmed line is blank or non-empty, trimmed and free of newlines |
| LogFormat.KeptLinesSnoc | historyFile.go:100-106 | reading one more record keeps its trimmed line at the end, unless the line is blank |
| LogFormat.Window | historyFile.go:106-110 | the newest `limit` lines when the limit is positive and exceeded, else all of them |
| LogFormat.Slide | historyFile.go:106-110 | one line appended, and the oldest dropped when that exceeds a positive limit |
| LogFormat.WindowKeepsNewest | historyFile.go:106-110 | the window holds the newest `limit` lines (all of them when the limit is not positive), in order |
| LogFormat.WindowSnoc | historyFile.go:106-110 | the window over one more line is the previous window slid over that line |
| LogFormat.WindowIdempotent | historyFile.go:106-110 | windowing the window again changes nothing |
| LogFormat.Serialise | historyFile.go:136-143 | serialised lines end in a newline |
| LogFormat.RecordsOfSerialise | historyFile.go:136-143 | the serialised lines read back as one record per line |
| LogFormat.ReadSerialised | historyFile.go:94-110 | well-formed lines, written and read back, give the same lines |
| LogFormat.RecordsConcat | historyFile.go:94-99 | the records of a terminated text followed by more text are the records of each in turn |
| LogFormat.TrimSpaceOfRecord | historyFile.go:101 | the record an append writes trims back, on reading, to the trimmed line |
| LogFormat.TrimSpaceKeepsNoNewline | historyFile.go:48 | trimming a line without a newline cannot produce one |
| LogFormat.AppendRecord | historyFile.go:48-49 | appending a trimmed line and a newline to a terminated log adds one record, kept unless the line is blank |
| HistoryLog.TmpPath | historyFile.go:122 | the temporary file is never the log itself |
| HistoryLog.LoadSpec | historyFile.go:81-118 | _load fails exactly when the open fails, the file is missing or a read fails; on success it counts every record and returns the newest `limit` kept lines in order |
| HistoryLog.LoadedLinesWellFormed | historyFile.go:100-106 | every line _load returns is non-empty, trimmed and free of newlines |
| HistoryLog.ReadLog | historyFile.go:81-118 | the method computes `LoadSpec` |
| HistoryLog.ReadRecords | historyFile.go:94-117 | the read loop counts the records up to the first failing read and windows their kept lines |
| HistoryLog.ReadStep | historyFile.go:101-110 | one more record slides the window over its trimmed line, or leaves it when the line is blank |
| HistoryLog.RewriteSpec | historyFile.go:120-150 | _rewrite succeeds exactly when no open, write, flush or rename fault strikes. On success the log holds the serialised lines and the temporary file is gone. On a later failure the log is untouched and the temporary file removed. A failed open changes nothing |
| HistoryLog.RewriteFrame | historyFile.go:120-150 | _rewrite touches no file other than the log and its temporary file, and on failure not the log |
| HistoryLog.RewriteLog | historyFile.go:120-150 | the method computes `RewriteSpec`'s files and error |
| HistoryLog.BufferLines | historyFile.go:135-143 | the buffered writes fail exactly when a write fault strikes one of the `2n` writes, and otherwise buffer the serialised lines |
| HistoryLog.LoadLog | historyFile.go:25-36 | Load returns _load's lines; the files change only when _load succeeded with more records than a positive limit; Ok implies _load succeeded |
| HistoryLog.HistoryFile.Load | historyFile.go:25-36 | the method's lines, error and files are those of `LoadLog` |
| HistoryLog.Created | historyFile.go:73 | opening with O_CREATE leaves an existing log as it is and creates a missing one |
| HistoryLog.AppendLine | historyFile.go:48-49 | a successful append leaves the log's old contents as a prefix, followed by the trimmed line and a newline |
| HistoryLog.HistoryFile.OpenAppendOnly | historyFile.go:69-79 | an open descriptor is reused; otherwise the open creates the log, or fails and changes nothing |
| HistoryLog.HistoryFile.Append | historyFile.go:38-51 | open failure: nothing written; write failure: only the creation remains; otherwise the log gains the trimmed line and a newline |
| HistoryLog.HistoryFile.Close | historyFile.go:53-66 | a closed descriptor stays closed; an open one is closed unless the close fails, in which case it stays open and the error is returned |
| HistoryLog.HistoryFile.constructor | historyFile.go:18-23 | a new history file has no open descriptor |
| HistoryLog.RewriteThenLoad | historyFile.go:25-36 | well-formed lines that fit the window, once rewritten, load back as the same lines and cause no further rewrite |
| HistoryLog.LoadCompacts | historyFile.go:25-36 | a log with more records than a positive limit is rewritten to the newest `limit` lines, which Load returns; a second Load returns the same lines and changes nothing |
| HistoryLog.AppendThenLoad | historyFile.go:38-51 | after an append a Load counts one more record and slides its window over the trimmed line, unless the line is blank |
| HistoryLog.FirstAppend | historyFile.go:38-51 | the first append creates a missing log that loads as its one trimmed line (none if blank) and one record |
| HistoryLog.LoadEmpty | historyFile.go:81-118 | an empty log loads as no lines and no records |
| Startup.LoadReturnsNewest | historyFile.go:25-36 | a fault-free Load with a positive limit returns the newest `limit` kept lines of the log |
| Startup.StartFromLog | history.go:59-85 | a store initialised from a fault-free log holds the newest `limit` lines in file order, then the empty placeholder under the cursor, and each line shows itself |

## Left out

- The version counter `historyVer` is an `int64` in Go. The model uses an unbounded integer; overflow would need 2^63 version bumps.
- The mutex of `historyFile` (historyFile.go:15) is left out. The model is sequential. Cross-process appends to the same file are not modelled.
- The append descriptor is modelled as an open/closed flag over the path. After a rename replaces the log while the descriptor stays open, Go writes to the old inode. The model does not capture that identity.
- Partial and short writes are not modelled. A write either succeeds whole or fails before changing the file.
- The error of `os.Remove` in `_rewrite`'s cleanup (historyFile.go:131) is ignored by the code. The model always removes the temporary file.
- The closes of the read descriptor and of the temporary file (historyFile.go:88, 129) and their errors are not modelled. The code ignores those errors.
- HistoryModel.AfterUpdate: the list fits the limit afterwards only for a non-negative limit. The rest of what Update does is stated by `CommitWritesCursorItem` and `DraftWritesCursorItem`, which require the list to fit already.
- HistoryModel.CommitWritesCursorItem: requires `|items| <= limit`. On the `limit + 1` list that `New` leaves, Update also drops the oldest item; `WithCursorItem` and `AfterCompact` state that case.
- HistoryModel.DraftWritesCursorItem: requires `|items| <= limit`, for the same reason as `CommitWritesCursorItem`.
- The `Config` selection in `initHistory` (history.go:61-68) is modelled as one flag: whether a writer is configured. The writer's `Load` answer is a parameter. `Config` itself is not part of this model.
- `runes.go` is not part of this model.
  - `IndexAllEx` and `IndexAllBckEx` are modelled by a reference definition of first and last occurrence.
  - Corner cases of that file, such as an empty pattern, may differ from the reference definition.
  - Case folding covers ASCII letters only.
- The conversions between runes and UTF-8 strings (`string(line)`, `[]rune(line)`) are not modelled. Text is a sequence of characters throughout.
- `debug` (history.go:191-196) only logs, and it is left out.
- `runes.Copy` and the slice aliasing it prevents are not modelled. Sequences are values.
- History.OpHistory.FindBck: requires a cut (`start`, plus the pattern's length on a new search) of at least 0 whenever there is a cursor. Otherwise Go's `item[:start]` panics, and the model does not represent panics.
- History.OpHistory.FindFwd: requires `start >= 0` when there is a cursor and the search is not new. Otherwise Go's `item[start:]` panics; a new search clamps a negative start to 0 and is allowed.

=== FILE: history.dfy ===
/**
 * opHistory: the in-memory history of entered lines.  The object keeps a
 * list of items, a cursor into it, a version counter that decides which
 * drafts are still visible, and a flag that suspends recording.  Each method
 * changes these fields as the source does and is proved to reach the state
 * that module HistoryModel describes.
 *
 * The history writer (the persistent log or a caller-supplied one) is
 * abstract: the object records whether it has one, and a ghost trace of the
 * calls it makes to it; what the writer answers is a parameter.
 */
module History {
  import opened Io
  import opened Runes
  import opened HistoryModel

  /** A call the store makes to its HistoryWriter. */
  datatype WriterCall = LoadCall | AppendCall(line: seq<char>) | CloseCall

  /** A measure that each step of a search makes smaller. */
  function BckRank(e: Cursor): nat {
    match e
    case At(i) => i + 1
    case Detached(_) => 1
    case Nil => 0
  }

  function FwdRank(h: Store, e: Cursor): nat {
    match e
    case At(i) => if i < |h.items| then |h.items| - i else 0
    case Detached(_) => 1
    case Nil => 0
  }

  class OpHistory {
    /** cfg.HistoryLimit */
    const limit: int
    /** cfg.HistorySearchFold */
    const fold: bool

    var items: seq<HisItem>
    var cursor: Cursor
    var ver: int
    var enabled: bool
    var hasWriter: bool
    ghost var calls: seq<WriterCall>

    function State(): Store
      reads this
    {
      Store(items, cursor, ver)
    }

    ghost predicate Valid()
      reads this
    {
      Inv(State())
    }

    /** newOpHistory: an empty list, no cursor, version 0, recording enabled, no writer. */
    constructor (limit: int, fold: bool)
      ensures Valid() && items == [] && cursor == Nil && ver == 0
      ensures enabled && !hasWriter && calls == []
      ensures this.limit == limit && this.fold == fold
    {
      this.limit := limit;
      this.fold := fold;
      items := [];
      cursor := Nil;
      ver := 0;
      enabled := true;
      hasWriter := false;
      calls := [];
    }

    /** Reset: a new empty list and no cursor; the version and the writer stay. */
    method Reset()
      requires Valid()
      modifies this`items, this`cursor
      ensures Valid() && items == [] && cursor == Nil
    {
      items := [];
      cursor := Nil;
    }

    /** IsHistoryClosed: no writer is attached. */
    function IsHistoryClosed(): bool
      reads this
    {
      !hasWriter
    }

    /** Init: connect and load the log, unless a writer is already attached. */
    method Init(configured: bool, loaded: Result<seq<seq<char>>>) returns (err: Outcome)
      requires Valid()
      modifies this
      ensures Valid() && enabled == old(enabled)
      ensures old(hasWriter) ==> State() == old(State()) && hasWriter && calls == old(calls) && err == Ok
      ensures !old(hasWriter) && !configured ==> State() == old(State()) && !hasWriter && calls == old(calls) && err == Ok
      ensures !old(hasWriter) && configured ==> hasWriter && calls == old(calls) + [LoadCall]
      ensures !old(hasWriter) && configured && loaded.Failure? ==> State() == old(State()) && err == Fail(loaded.failure)
      ensures !old(hasWriter) && configured && loaded.Success? ==>
        State() == AfterInit(old(State()), loaded.value, limit) && err == Ok
    {
      err := Ok;
      if IsHistoryClosed() {
        err := InitHistory(configured, loaded);
      }
    }

    /**
     * initHistory: without a configured log, nothing happens.  Otherwise the
     * writer is attached and asked to Load; on success every line is pushed
     * and compacted in turn, the version is bumped and an empty placeholder
     * is pushed.
     */
    method InitHistory(configured: bool, loaded: Result<seq<seq<char>>>) returns (err: Outcome)
      requires Valid()
      modifies this
      ensures Valid() && enabled == old(enabled)
      ensures !configured ==> State() == old(State()) && hasWriter == old(hasWriter) && calls == old(calls) && err == Ok
      ensures configured ==> hasWriter && calls == old(calls) + [LoadCall]
      ensures configured && loaded.Failure? ==> State() == old(State()) && err == Fail(loaded.failure)
      ensures configured && loaded.Success? ==> State() == AfterInit(old(State()), loaded.value, limit) && err == Ok
    {
      if !configured {
        return Ok;
      }
      hasWriter := true;
      calls := calls + [LoadCall];
      if loaded.Failure? {
        return Fail(loaded.failure);
      }
      ghost var h0 := State();
      PushLines(loaded.value);
      ghost var p := State();
      assert p == PushAll(h0, loaded.value, limit);
      BumpKeepsInv(p);
      ver := ver + 1;
      ghost var q := State();
      assert q == p.(ver := p.ver + 1);
      Push([]);
      assert State() == AfterPush(q, []);
      assert AfterInit(h0, loaded.value, limit) == AfterPush(q, []);
      err := Ok;
    }

    /** The loading loop of initHistory: Push then Compact, line by line. */
    method PushLines(lines: seq<seq<char>>)
      requires Valid()
      modifies this`items, this`cursor
      ensures Valid() && State() == PushAll(old(State()), lines, limit)
    {
      ghost var h0 := State();
      var i := 0;
      while i < |lines|
        invariant 0 <= i <= |lines|
        invariant Valid() && State() == PushAll(h0, lines[..i], limit)
      {
        ghost var before := State();
        Push(lines[i]);
        Compact();
        assert State() == AfterCompact(AfterPush(before, lines[i]), limit);
        assert lines[..i + 1] == lines[..i] + [lines[i]];
        PushAllSnoc(h0, lines[..i], lines[i], limit);
        i := i + 1;
      }
      assert lines[..i] == lines;
    }

    /** Compact: remove the front item while the list is longer than the limit and not empty. */
    method Compact()
      requires Valid()
      modifies this`items, this`cursor
      ensures Valid() && State() == AfterCompact(old(State()), limit)
    {
      ghost var h0 := State();
      ghost var removed := 0;
      while |items| > limit && |items| > 0
        invariant 0 <= removed <= |h0.items| && items == h0.items[removed..]
        invariant cursor == Shift(h0.cursor, h0.items, removed)
        invariant removed > 0 ==> |h0.items| > limit && |h0.items| - removed + 1 > limit
        decreases |items|
      {
        // list.Remove(list.Front()): a cursor on the front element is left detached
        cursor := match cursor
          case At(i) => if i == 0 then Detached(items[0]) else At(i - 1)
          case c => c;
        items := items[1..];
        removed := removed + 1;
      }
      assert removed == |h0.items| - Kept(|h0.items|, limit);
    }

    /** Close: close the writer, ignoring its answer, and detach it. */
    method Close()
      modifies this`hasWriter, this`calls
      ensures !hasWriter
      ensures calls == old(calls) + (if old(hasWriter) then [CloseCall] else [])
    {
      if hasWriter {
        calls := calls + [CloseCall];
        hasWriter := false;
      }
    }

    /**
     * FindBck: from the cursor toward older items, the first item whose shown
     * text contains `rs`, with the offset of the last occurrence.  In the
     * cursor's item only the first `start` runes are searched (plus the
     * pattern's length on a new search).  (-1, Nil) when nothing matches.
     * A negative cut would make the slice of the cursor's item panic; with
     * no cursor nothing is sliced.
     */
    method FindBck(isNewSearch: bool, rs: seq<char>, start: int) returns (idx: int, elem: Cursor)
      requires Valid() && (cursor == Nil || BckCut(isNewSearch, rs, start) >= 0)
      ensures var h := State();
        var cut := BckCut(isNewSearch, rs, start);
        match h.cursor
        case Nil => idx == -1 && elem == Nil
        case Detached(_) => idx == BckHit(h, h.cursor, cut, rs, fold) && elem == (if idx < 0 then Nil else h.cursor)
        case At(c) =>
          if idx < 0 then
            idx == -1 && elem == Nil && forall k :: 0 <= k <= c ==> BckHit(h, At(k), cut, rs, fold) == -1
          else
            elem.At? && elem.index <= c && idx == BckHit(h, elem, cut, rs, fold) &&
            forall k :: elem.index < k <= c ==> BckHit(h, At(k), cut, rs, fold) == -1
    {
      var h := State();
      var cut := BckCut(isNewSearch, rs, start);
      var e := cursor;
      var st := start;
      while e != Nil
        invariant e == Nil || ValidElem(h, e)
        invariant e == cursor ==> st == start
        invariant st >= start
        invariant cursor.Nil? ==> e == Nil
        invariant cursor.Detached? ==> e == cursor || (e == Nil && BckHit(h, cursor, cut, rs, fold) == -1)
        invariant cursor.At? ==> e == Nil || (e.At? && e.index <= cursor.index)
        invariant cursor.At? ==>
          forall k :: BckRank(e) <= k <= cursor.index ==> BckHit(h, At(k), cut, rs, fold) == -1
        decreases BckRank(e)
      {
        var item := ShowItem(ElemItem(h, e));
        if isNewSearch {
          st := st + |rs|;
        }
        if e == cursor {
          if |item| >= st {
            item := item[..st];
          }
        }
        assert item == BckText(h, e, cut);
        var i := LastIndex(item, rs, fold);
        if i >= 0 {
          return i, e;
        }
        assert BckHit(h, e, cut, rs, fold) == -1;
        e := PrevElem(e);
      }
      return -1, Nil;
    }

    /**
     * FindFwd: from the cursor toward newer items, the first item whose shown
     * text contains `rs`, with the offset of the first occurrence.  In the
     * cursor's item the search starts at `start` (less the pattern's length
     * on a new search), the item is skipped when that is past its last rune,
     * and the offset is relative to the whole text.  (-1, Nil) when nothing
     * matches.  A new search clamps a negative start to 0; otherwise a
     * negative start would make the slice of the cursor's item panic.
     */
    method FindFwd(isNewSearch: bool, rs: seq<char>, start: int) returns (idx: int, elem: Cursor)
      requires Valid() && (cursor == Nil || FwdCut(isNewSearch, rs, start) >= 0)
      ensures var h := State();
        var cut := FwdCut(isNewSearch, rs, start);
        match h.cursor
        case Nil => idx == -1 && elem == Nil
        case Detached(_) => idx == FwdHit(h, h.cursor, cut, rs, fold) && elem == (if idx < 0 then Nil else h.cursor)
        case At(c) =>
          if idx < 0 then
            idx == -1 && elem == Nil && forall k :: c <= k < |h.items| ==> FwdHit(h, At(k), cut, rs, fold) == -1
          else
            elem.At? && c <= elem.index < |h.items| && idx == FwdHit(h, elem, cut, rs, fold) &&
            forall k :: c <= k < elem.index ==> FwdHit(h, At(k), cut, rs, fold) == -1
    {
      var h := State();
      var cut := FwdCut(isNewSearch, rs, start);
      var e := cursor;
      var st := start;
      while e != Nil
        invariant e == Nil || ValidElem(h, e)
        invariant e == cursor ==> st == start
        invariant e != cursor ==> st >= 0
        invariant match cursor
          case Nil => e == Nil
          case Detached(_) => e == cursor || (e == Nil && FwdHit(h, cursor, cut, rs, fold) == -1)
          case At(c) =>
            (e == Nil || (e.At? && c <= e.index)) &&
            forall k :: c <= k < (if e == Nil then |h.items| else e.index) ==> FwdHit(h, At(k), cut, rs, fold) == -1
        decreases FwdRank(h, e)
      {
        var item := ShowItem(ElemItem(h, e));
        if isNewSearch {
          st := st - |rs|;
          if st < 0 {
            st := 0;
          }
        }
        var found := -1;
        if e == cursor {
          if |item| - 1 >= st {
            found := FirstIndex(item[st..], rs, fold);
            if found >= 0 {
              found := found + st;
            }
          }
        } else {
          found := FirstIndex(item, rs, fold);
        }
        assert found == FwdHit(h, e, cut, rs, fold);
        if found >= 0 {
          return found, e;
        }
        e := NextElem(h, e);
      }
      return -1, Nil;
    }

    /** showItem: the draft while the item's stamp is the current version, else the committed text. */
    function ShowItem(it: HisItem): seq<char>
      reads this
    {
      Show(it, ver)
    }

    /** Prev: one step toward older items; nil when there is no cursor or no older item. */
    method Prev() returns (line: Option<seq<char>>)
      requires Valid()
      modifies this`cursor
      ensures Valid()
      ensures (State(), line) == AfterPrev(old(State()))
    {
      match cursor {
        case At(i) =>
          if i == 0 {
            return None;
          }
          cursor := At(i - 1);
          return Some(ShowItem(items[i - 1]));
        case _ =>
          return None;
      }
    }

    /** Next: one step toward newer items; (nil, false) when there is no cursor or no newer item. */
    method Next() returns (line: seq<char>, ok: bool)
      requires Valid()
      modifies this`cursor
      ensures Valid()
      ensures (State(), line, ok) == AfterNext(old(State()))
    {
      match cursor {
        case At(i) =>
          if i + 1 >= |items| {
            return [], false;
          }
          cursor := At(i + 1);
          return ShowItem(items[i + 1]), true;
        case _ =>
          return [], false;
      }
    }

    method Disable()
      modifies this`enabled
      ensures !enabled
    {
      enabled := false;
    }

    method Enable()
      modifies this`enabled
      ensures enabled
    {
      enabled := true;
    }

    /**
     * New: commit the line being edited.  A no-op while recording is
     * disabled; otherwise as AfterNew describes, with the committed line
     * passed to the writer's Append when Update reaches an item.
     */
    method New(text: seq<char>, appendAnswer: Outcome) returns (err: Outcome)
      requires Valid()
      modifies this
      ensures Valid() && enabled == old(enabled) && hasWriter == old(hasWriter)
      ensures !old(enabled) ==> State() == old(State()) && calls == old(calls) && err == Ok
      ensures old(enabled) ==> State() == AfterNew(old(State()), text, limit)
      ensures var a := if old(enabled) && hasWriter then NewAppends(old(State()), text) else None;
        && calls == old(calls) + (if a.Some? then [AppendCall(a.value)] else [])
        && err == (if a.Some? then appendAnswer else Ok)
    {
      if !enabled {
        return Ok;
      }
      ghost var h0 := State();
      var current := text;
      var n := |items|;
      // the previous command submitted again: just clean the last item
      if n >= 2 && current == items[n - 2].source {
        cursor := At(n - 1);
        items := items[n - 1 := Clean(items[n - 1])];
        ver := ver + 1;
        assert Collapses(h0, text) && State() == AfterCollapse(h0);
        return Ok;
      }
      if |current| == 0 {
        cursor := Back(items);
        if cursor != Nil {
          items := items[n - 1 := Clean(items[n - 1])];
          ver := ver + 1;
          assert Collapses(h0, text) && State() == AfterCollapse(h0);
          return Ok;
        }
      }
      if cursor != Back(items) {
        // an older item was being edited: commit its draft as the new line
        var currentItem := CursorItem(State());
        cursor := Back(items);
        current := currentItem.tmp;
      }
      assert !Collapses(h0, text);
      assert (State(), current) == CommitTarget(h0, text);
      assert NewAppends(h0, text) == if cursor != Nil then Some(current) else None;
      err := CommitLine(current, appendAnswer);
      assert State() == AfterCommit(h0, text, limit);
    }

    /** The tail of New: Update(current, true), bump the version, push the empty placeholder. */
    method CommitLine(current: seq<char>, appendAnswer: Outcome) returns (err: Outcome)
      requires Valid()
      modifies this`items, this`cursor, this`ver, this`calls
      ensures Valid() && State() == BumpAndPush(AfterUpdate(old(State()), current, true, limit))
      ensures var a := hasWriter && old(cursor) != Nil;
        && calls == old(calls) + (if a then [AppendCall(current)] else [])
        && err == (if a then appendAnswer else Ok)
    {
      err := Update(current, true, appendAnswer);
      ghost var h3 := State();
      BumpKeepsInv(h3);
      ver := ver + 1;
      Push([]);
    }

    /** Revert: bump the version, discarding every draft, and put the cursor on the last item. */
    method Revert()
      requires Valid()
      modifies this`ver, this`cursor
      ensures Valid() && State() == AfterRevert(old(State()))
      ensures forall i :: 0 <= i < |items| ==> ShowItem(items[i]) == items[i].source
    {
      ver := ver + 1;
      cursor := Back(items);
      RevertShowsSources(old(State()));
    }

    /**
     * Update: write `s` into the cursor's item, as committed text (passed on
     * to the writer's Append) or as draft, stamp it with the version and
     * compact; with no cursor, Push then Compact.
     */
    method Update(s: seq<char>, commit: bool, appendAnswer: Outcome) returns (err: Outcome)
      requires Valid()
      modifies this`items, this`cursor, this`calls
      ensures Valid() && State() == AfterUpdate(old(State()), s, commit, limit)
      ensures var a := hasWriter && UpdateAppends(old(State()), commit);
        && calls == old(calls) + (if a then [AppendCall(s)] else [])
        && err == (if a then appendAnswer else Ok)
    {
      err := Ok;
      ghost var h0 := State();
      if cursor == Nil {
        Push(s);
        Compact();
        return;
      }
      var r := CursorItem(State());
      r := r.(version := ver);
      if commit {
        r := r.(source := s);
        if hasWriter {
          err := appendAnswer;
          calls := calls + [AppendCall(r.source)];
        }
      } else {
        r := r.(tmp := s);
      }
      match cursor {
        case At(i) => items := items[i := r];
        case Detached(_) => cursor := Detached(r);
      }
      ghost var w := State();
      assert w == WithCursorItem(h0, Stamp(CursorItem(h0), s, commit, h0.ver));
      Compact();
      assert State() == AfterCompact(w, limit);
    }

    /** Push: append an item holding a copy of `s` and point the cursor at it. */
    method Push(s: seq<char>)
      requires Valid()
      modifies this`items, this`cursor
      ensures Valid() && State() == AfterPush(old(State()), s)
    {
      items := items + [Fresh(s)];
      cursor := At(|items| - 1);
    }
  }
}

=== FILE: history_file.dfy ===
/**
 * The file-backed history writer: loading the log (with its sliding window
 * and the compaction rewrite through a temporary file and a rename),
 * appending one line, and the append descriptor's open/close state.
 *
 * The operating system is a map from paths to file contents held by a
 * `Disk` object; every point where the operating system can fail is a
 * fault parameter.
 */
module HistoryLog {
  import opened Io
  import opened Runes
  import opened LogFormat
  import opened Seqs

  type Path = seq<char>
  type FileSystem = map<Path, seq<char>>

  /** The files the history writer reads, writes and renames. */
  class Disk {
    var files: FileSystem
  }

  /** The temporary file _rewrite writes before renaming it over the log. */
  function TmpPath(fn: Path): (r: Path)
    ensures r != fn
  {
    var r := fn + ".tmp";
    assert |r| > |fn|;
    r
  }

  /** Every file except those in `except` is the same in both maps. */
  ghost predicate SameOutside(a: FileSystem, b: FileSystem, except: set<Path>) {
    forall p :: p !in except ==> (p in a <==> p in b) && (p in a ==> a[p] == b[p])
  }

  // ---------------------------------------------------------------------
  // Reading the log (_load)
  // ---------------------------------------------------------------------

  /**
   * What can go wrong while reading: the open, or the ReadString call with
   * the given number (counting from 0) reports an error other than the end
   * of the file.
   */
  datatype ReadFaults = ReadFaults(openFails: bool, failAt: Option<nat>)

  const NoReadFaults := ReadFaults(false, None)

  /** _load's three results: the kept lines, the count of records read, the error. */
  datatype Loaded = Loaded(lines: seq<seq<char>>, total: nat, err: Outcome)

  /** Whether a read fault strikes before the end of the file is reached. */
  predicate ReadFaultHits(recs: seq<seq<char>>, rf: ReadFaults) {
    rf.failAt.Some? && rf.failAt.value <= |recs|
  }

  /**
   * The result of _load: a missing or unopenable log is an open error with
   * no lines; otherwise the records up to the first failing read, trimmed,
   * blank ones skipped, and the newest `limit` of them when `limit` is positive.
   */
  function LoadSpec(files: FileSystem, fn: Path, limit: int, rf: ReadFaults): (r: Loaded)
    ensures limit > 0 ==> |r.lines| <= limit
    ensures |r.lines| <= r.total
    ensures r.err == Ok <==> !rf.openFails && fn in files && !ReadFaultHits(Records(files[fn]), rf)
    ensures r.err == Ok ==> r.total == |Records(files[fn])|
    ensures r.err == Ok ==> var kept := KeptLines(Records(files[fn]));
      |r.lines| == (if limit > 0 && |kept| > limit then limit else |kept|) && r.lines == kept[|kept| - |r.lines|..]
  {
    if rf.openFails || fn !in files then Loaded([], 0, Fail(OpenFailed))
    else
      var recs := Records(files[fn]);
      if ReadFaultHits(recs, rf) then
        var n := rf.failAt.value;
        Loaded(Window(KeptLines(recs[..n]), limit), n, Fail(ReadFailed))
      else
        Loaded(Window(KeptLines(recs), limit), |recs|, Ok)
  }

  /** Every line a Load returns is well formed: not blank, trimmed, free of newlines. */
  lemma LoadedLinesWellFormed(files: FileSystem, fn: Path, limit: int, rf: ReadFaults)
    ensures var r := LoadSpec(files, fn, limit, rf);
      forall k :: 0 <= k < |r.lines| ==> WellFormedLine(r.lines[k])
  {
    if !rf.openFails && fn in files {
      var recs := Records(files[fn]);
      RecordsAreRecords(files[fn]);
      var n := if ReadFaultHits(recs, rf) then rf.failAt.value else |recs|;
      assert forall k :: 0 <= k < n ==> IsRecord(recs[..n][k]);
      KeptLinesWellFormed(recs[..n]);
      assert recs[..|recs|] == recs;
    }
  }

  /**
   * _load: read records one by one, counting each, keeping the trimmed
   * non-blank ones in a window of the newest `limit`.  The buffered reader
   * yields the newline-terminated records of the file in order; the call
   * after the last one reports the end of the file.
   */
  method ReadLog(files: FileSystem, fn: Path, limit: int, rf: ReadFaults) returns (r: Loaded)
    ensures r == LoadSpec(files, fn, limit, rf)
  {
    if rf.openFails || fn !in files {
      return Loaded([], 0, Fail(OpenFailed));
    }
    var recs := Records(files[fn]);
    var lines, total, err := ReadRecords(recs, limit, rf.failAt);
    if err == Ok {
      assert recs[..total] == recs;
    }
    return Loaded(lines, total, err);
  }

  /**
   * The read loop of _load over the records the buffered reader yields in
   * order: the call after the last one reports the end of the file, and
   * the call numbered `failAt`, if it comes first, reports an error.
   */
  method ReadRecords(recs: seq<seq<char>>, limit: int, failAt: Option<nat>) returns (lines: seq<seq<char>>, total: nat, err: Outcome)
    ensures total == (if failAt.Some? && failAt.value <= |recs| then failAt.value else |recs|)
    ensures err == (if failAt.Some? && failAt.value <= |recs| then Fail(ReadFailed) else Ok)
    ensures lines == Window(KeptLines(recs[..total]), limit)
  {
    lines, total, err := [], 0, Ok;
    assert recs[..total] == [];
    while true
      invariant total <= |recs|
      invariant failAt.None? || failAt.value >= total
      invariant err == Ok
      invariant lines == Window(KeptLines(recs[..total]), limit)
      decreases |recs| - total
    {
      if failAt == Some(total) {
        err := Fail(ReadFailed);
        break;
      }
      if total == |recs| {
        // io.EOF: any text after the last newline is dropped
        break;
      }
      var line := TrimSpace(recs[total]);
      ReadStep(recs, total, limit, lines);
      total := total + 1;
      if |line| == 0 {
        continue;
      }
      lines := lines + [line];
      if limit > 0 && |lines| > limit {
        lines := lines[1..];
      }
    }
  }

  /** One more record read: the window slides over its trimmed line, or stays when the line is blank. */
  lemma ReadStep(recs: seq<seq<char>>, total: nat, limit: int, lines: seq<seq<char>>)
    requires total < |recs| && lines == Window(KeptLines(recs[..total]), limit)
    ensures var t := TrimSpace(recs[total]);
      var grown := lines + [t];
      var next := Window(KeptLines(recs[..total + 1]), limit);
      && (t == [] ==> next == lines)
      && (t != [] ==> next == if limit > 0 && |grown| > limit then grown[1..] else grown)
  {
    assert recs[..total + 1] == recs[..total] + [recs[total]];
    KeptLinesSnoc(recs[..total], recs[total]);
    var t := TrimSpace(recs[total]);
    if t != [] {
      WindowSnoc(KeptLines(recs[..total]), t, limit);
    } else {
      assert KeptLines(recs[..total]) + [] == KeptLines(recs[..total]);
    }
  }

  // ---------------------------------------------------------------------
  // Rewriting the log (_rewrite)
  // ---------------------------------------------------------------------

  /**
   * What can go wrong while rewriting: opening the temporary file, the
   * buffered write with the given number (line k is write 2k, its newline
   * write 2k+1), the flush, or the rename.
   */
  datatype WriteFaults = WriteFaults(openFails: bool, failAt: Option<nat>, flushFails: bool, renameFails: bool)

  const NoWriteFaults := WriteFaults(false, None, false, false)

  /** Whether a write fault strikes one of the 2|lines| buffered writes. */
  predicate WriteFaultHits(lines: seq<seq<char>>, wf: WriteFaults) {
    wf.failAt.Some? && wf.failAt.value < 2 * |lines|
  }

  /**
   * The files and the error after _rewrite: on success the log holds the
   * serialised lines and the temporary file is gone; on any failure after
   * the temporary file was opened the log is untouched and the temporary
   * file is removed; when the open fails nothing changes.
   */
  function RewriteSpec(files: FileSystem, fn: Path, lines: seq<seq<char>>, wf: WriteFaults): (r: (FileSystem, Outcome))
    ensures r.1 == Ok ==> fn in r.0 && r.0[fn] == Serialise(lines) && TmpPath(fn) !in r.0
    ensures r.1 != Ok ==> (fn in r.0 <==> fn in files) && (fn in files ==> r.0[fn] == files[fn])
    ensures r.1 != Ok && !wf.openFails ==> TmpPath(fn) !in r.0
    ensures wf.openFails ==> r == (files, Fail(OpenFailed))
    ensures r.1 == Ok <==> !wf.openFails && !WriteFaultHits(lines, wf) && !wf.flushFails && !wf.renameFails
  {
    var tmp := TmpPath(fn);
    if wf.openFails then (files, Fail(OpenFailed))
    else if WriteFaultHits(lines, wf) then (files - {tmp}, Fail(WriteFailed))
    else if wf.flushFails then (files - {tmp}, Fail(FlushFailed))
    else if wf.renameFails then (files - {tmp}, Fail(RenameFailed))
    else ((files - {tmp})[fn := Serialise(lines)], Ok)
  }

  /** _rewrite touches no file but the log and its temporary file, and on failure not the log either. */
  lemma RewriteFrame(files: FileSystem, fn: Path, lines: seq<seq<char>>, wf: WriteFaults)
    ensures var r := RewriteSpec(files, fn, lines, wf);
      && SameOutside(r.0, files, {fn, TmpPath(fn)})
      && (r.1 != Ok ==> SameOutside(r.0, files, {TmpPath(fn)}))
  {
  }

  /**
   * _rewrite: create the temporary file empty, buffer every line and its
   * newline, flush, and rename the temporary file over the log; a failure
   * after the open removes the temporary file.
   */
  method RewriteLog(disk: Disk, fn: Path, lines: seq<seq<char>>, wf: WriteFaults) returns (err: Outcome)
    modifies disk
    ensures (disk.files, err) == RewriteSpec(old(disk.files), fn, lines, wf)
  {
    var tmp := TmpPath(fn);
    if wf.openFails {
      return Fail(OpenFailed);
    }
    ghost var files0 := disk.files;
    disk.files := disk.files[tmp := []];
    var buf;
    buf, err := BufferLines(lines, wf.failAt);
    if err == Ok && wf.flushFails {
      err := Fail(FlushFailed);
    }
    if err == Ok {
      disk.files := disk.files[tmp := buf];
      if wf.renameFails {
        err := Fail(RenameFailed);
      } else {
        RemoveUpdated(files0, tmp, [], buf);
        disk.files := (disk.files - {tmp})[fn := disk.files[tmp]];
      }
    }
    // the deferred handler: on any error, remove the temporary file
    if err != Ok {
      RemoveUpdated(files0, tmp, [], buf);
      disk.files := disk.files - {tmp};
    }
  }

  /** Removing a key forgets whatever was last stored under it. */
  lemma RemoveUpdated<K, V>(m: map<K, V>, k: K, v: V, w: V)
    ensures m[k := v] - {k} == m - {k}
    ensures m[k := v][k := w] - {k} == m - {k}
  {
  }

  /**
   * The buffered writes of _rewrite: each line, then its newline, until a
   * write fails.
   */
  method BufferLines(lines: seq<seq<char>>, failAt: Option<nat>) returns (buf: seq<char>, err: Outcome)
    ensures err == (if failAt.Some? && failAt.value < 2 * |lines| then Fail(WriteFailed) else Ok)
    ensures err == Ok ==> buf == Serialise(lines)
  {
    buf, err := [], Ok;
    var i := 0;
    while i < |lines|
      invariant 0 <= i <= |lines|
      invariant buf == Serialise(lines[..i])
      invariant failAt.None? || failAt.value >= 2 * i
    {
      if failAt == Some(2 * i) {
        return buf, Fail(WriteFailed);
      }
      buf := buf + lines[i];
      if failAt == Some(2 * i + 1) {
        return buf, Fail(WriteFailed);
      }
      buf := buf + "\n";
      assert lines[..i + 1][..i] == lines[..i];
      i := i + 1;
    }
    assert lines[..i] == lines;
  }

  // ---------------------------------------------------------------------
  // Load: read, and compact the log when it holds too many records
  // ---------------------------------------------------------------------

  /** historyFile.Load: the lines read, the error, and the files afterwards. */
  function LoadLog(files: FileSystem, fn: Path, limit: int, rf: ReadFaults, wf: WriteFaults): (r: (seq<seq<char>>, Outcome, FileSystem))
    ensures r.0 == LoadSpec(files, fn, limit, rf).lines
    ensures r.2 != files ==> var ld := LoadSpec(files, fn, limit, rf); ld.err == Ok && limit > 0 && ld.total > limit
    ensures r.1 == Ok ==> LoadSpec(files, fn, limit, rf).err == Ok
  {
    var ld := LoadSpec(files, fn, limit, rf);
    if ld.err == Ok && limit > 0 && ld.total > limit then
      var w := RewriteSpec(files, fn, ld.lines, wf);
      (ld.lines, w.1, w.0)
    else
      (ld.lines, ld.err, files)
  }

  /** The contents of the log after O_CREATE: as it was, or empty when it did not exist. */
  function Created(files: FileSystem, fn: Path): (r: FileSystem)
    ensures fn in r && (fn in files ==> r == files)
  {
    if fn in files then files else files[fn := []]
  }

  /** The files after a successful Append: the log ends with the trimmed line and a newline. */
  function AppendLine(files: FileSystem, fn: Path, line: seq<char>): (r: FileSystem)
    ensures fn in r
    ensures var c := Created(files, fn)[fn];
      |r[fn]| == |c| + |TrimSpace(line)| + 1 && r[fn][..|c|] == c && r[fn][|c|..] == TrimSpace(line) + "\n"
  {
    var c := Created(files, fn)[fn];
    files[fn := c + (TrimSpace(line) + "\n")]
  }

  /** Appending to a log that was created first is appending to it directly. */
  lemma AppendLineCreated(files: FileSystem, fn: Path, line: seq<char>)
    ensures AppendLine(Created(files, fn), fn, line) == AppendLine(files, fn, line)
  {
    var c := Created(files, fn);
    assert c[fn] == Created(c, fn)[fn];
    if fn !in files {
      assert c[fn := c[fn] + (TrimSpace(line) + "\n")] == files[fn := c[fn] + (TrimSpace(line) + "\n")];
    }
  }

  /** The history file: its path, its window size, and whether the append descriptor is open. */
  class HistoryFile {
    const fn: Path
    const limit: int
    const disk: Disk
    var fdOpen: bool

    /** An open append descriptor refers to the log file. */
    ghost predicate Valid()
      reads this, disk
    {
      fdOpen ==> fn in disk.files
    }

    /** NewHistoryFile: nothing is opened until the first Append. */
    constructor (fn: Path, limit: int, disk: Disk)
      ensures this.fn == fn && this.limit == limit && this.disk == disk
      ensures !fdOpen && Valid()
    {
      this.fn := fn;
      this.limit := limit;
      this.disk := disk;
      fdOpen := false;
    }

    /** Load: read the log, and rewrite it when the read succeeded and counted more than `limit` records. */
    method Load(rf: ReadFaults, wf: WriteFaults) returns (lines: seq<seq<char>>, err: Outcome)
      requires Valid()
      modifies disk
      ensures Valid()
      ensures (lines, err, disk.files) == LoadLog(old(disk.files), fn, limit, rf, wf)
    {
      var ld := ReadLog(disk.files, fn, limit, rf);
      lines, err := ld.lines, ld.err;
      if err == Ok && limit > 0 && ld.total > limit {
        err := RewriteLog(disk, fn, lines, wf);
      }
    }

    /** openAppendOnly: open the log for appending (creating it) unless it is open already. */
    method OpenAppendOnly(openFails: bool) returns (err: Outcome)
      requires Valid()
      modifies this, disk
      ensures Valid()
      ensures old(fdOpen) ==> err == Ok && fdOpen && disk.files == old(disk.files)
      ensures !old(fdOpen) && openFails ==> err == Fail(OpenFailed) && !fdOpen && disk.files == old(disk.files)
      ensures !old(fdOpen) && !openFails ==> err == Ok && fdOpen && disk.files == Created(old(disk.files), fn)
    {
      if fdOpen {
        return Ok;
      }
      if openFails {
        return Fail(OpenFailed);
      }
      disk.files := Created(disk.files, fn);
      fdOpen := true;
      err := Ok;
    }

    /** Append: open if needed, then add the trimmed line and a newline in one write. */
    method Append(line: seq<char>, openFails: bool, writeFails: bool) returns (err: Outcome)
      requires Valid()
      modifies this, disk
      ensures Valid()
      ensures fdOpen == (old(fdOpen) || !openFails)
      ensures !old(fdOpen) && openFails ==> err == Fail(OpenFailed) && disk.files == old(disk.files)
      ensures (old(fdOpen) || !openFails) && writeFails ==> err == Fail(WriteFailed) && disk.files == Created(old(disk.files), fn)
      ensures (old(fdOpen) || !openFails) && !writeFails ==> err == Ok && disk.files == AppendLine(old(disk.files), fn, line)
    {
      AppendLineCreated(disk.files, fn, line);
      err := OpenAppendOnly(openFails);
      if err != Ok {
        return;
      }
      if writeFails {
        return Fail(WriteFailed);
      }
      disk.files := AppendLine(disk.files, fn, line);
    }

    /** Close: close an open descriptor, keeping it open when the close fails. */
    method Close(closeFails: bool) returns (err: Outcome)
      modifies this
      ensures !old(fdOpen) ==> err == Ok && !fdOpen
      ensures old(fdOpen) ==> err == (if closeFails then Fail(CloseFailed) else Ok) && fdOpen == closeFails
    {
      if !fdOpen {
        return Ok;
      }
      if closeFails {
        return Fail(CloseFailed);
      }
      fdOpen := false;
      err := Ok;
    }
  }

  // ---------------------------------------------------------------------
  // What the log promises across operations
  // ---------------------------------------------------------------------

  /**
   * Writing well-formed lines and reading them back gives the same lines,
   * one record each; when they fit the window, a Load of the rewritten log
   * returns them and leaves the files as they are.
   */
  lemma RewriteThenLoad(files: FileSystem, fn: Path, lines: seq<seq<char>>, limit: int, wf: WriteFaults)
    requires forall k :: 0 <= k < |lines| ==> WellFormedLine(lines[k])
    requires limit <= 0 || |lines| <= limit
    ensures var w := RewriteSpec(files, fn, lines, NoWriteFaults);
      && w.1 == Ok
      && LoadSpec(w.0, fn, limit, NoReadFaults) == Loaded(lines, |lines|, Ok)
      && LoadLog(w.0, fn, limit, NoReadFaults, wf) == (lines, Ok, w.0)
  {
    var w := RewriteSpec(files, fn, lines, NoWriteFaults);
    ReadSerialised(lines);
    assert w.0[fn] == Serialise(lines);
  }

  /**
   * A log with more records than a positive limit is compacted by Load:
   * the newest `limit` lines are returned and become the whole log, and a
   * second Load returns the same lines without touching the files again.
   */
  lemma LoadCompacts(files: FileSystem, fn: Path, limit: int, wf: WriteFaults)
    requires limit > 0 && fn in files && |Records(files[fn])| > limit
    ensures var r := LoadLog(files, fn, limit, NoReadFaults, NoWriteFaults);
      && r.1 == Ok && fn in r.2 && r.2[fn] == Serialise(r.0) && TmpPath(fn) !in r.2
      && LoadLog(r.2, fn, limit, NoReadFaults, wf) == (r.0, Ok, r.2)
  {
    var ld := LoadSpec(files, fn, limit, NoReadFaults);
    assert ld.err == Ok && ld.total > limit;
    var w := RewriteSpec(files, fn, ld.lines, NoWriteFaults);
    assert LoadLog(files, fn, limit, NoReadFaults, NoWriteFaults) == (ld.lines, w.1, w.0);
    LoadedLinesWellFormed(files, fn, limit, NoReadFaults);
    RewriteThenLoad(files, fn, ld.lines, limit, wf);
  }

  /**
   * Appending to a newline-terminated log (or to a missing one, which the
   * open creates empty) adds one record: a later Load counts one more
   * record and, unless the line trims to nothing, slides the window over
   * the trimmed line.
   */
  lemma AppendThenLoad(files: FileSystem, fn: Path, line: seq<char>, limit: int)
    requires fn in files ==> Terminated(files[fn])
    requires '\n' !in line
    ensures var before := LoadSpec(Created(files, fn), fn, limit, NoReadFaults);
      var after := LoadSpec(AppendLine(files, fn, line), fn, limit, NoReadFaults);
      var t := TrimSpace(line);
      && after.err == Ok && after.total == before.total + 1
      && after.lines == (if t == [] then before.lines else Slide(before.lines, t, limit))
  {
    var c := Created(files, fn)[fn];
    var t := TrimSpace(line);
    AppendRecord(c, line);
    assert AppendLine(files, fn, line)[fn] == c + (t + "\n");
    if t != [] {
      WindowSnoc(KeptLines(Records(c)), t, limit);
    } else {
      assert KeptLines(Records(c)) + [] == KeptLines(Records(c));
    }
  }

  /**
   * The first Append creates a missing log; a Load then finds the one
   * trimmed line (none if it was blank) and counts one record.
   */
  lemma FirstAppend(files: FileSystem, fn: Path, line: seq<char>, limit: int)
    requires fn !in files && '\n' !in line
    ensures var after := LoadSpec(AppendLine(files, fn, line), fn, limit, NoReadFaults);
      var t := TrimSpace(line);
      after == Loaded(if t == [] then [] else [t], 1, Ok)
  {
    var files2 := AppendLine(files, fn, line);
    FirstRecord(files, fn, line);
    LoadWhole(files2, fn, limit);
    var kept := KeptLines(Records(files2[fn]));
    assert Window(kept, limit) == kept;
  }

  /** Without faults, Load of an existing log windows the kept lines of all its records. */
  lemma LoadWhole(files: FileSystem, fn: Path, limit: int)
    requires fn in files
    ensures var recs := Records(files[fn]);
      LoadSpec(files, fn, limit, NoReadFaults) == Loaded(Window(KeptLines(recs), limit), |recs|, Ok)
  {
  }

  /** A created log holding one appended line has one record, and keeps its trimmed line unless blank. */
  lemma FirstRecord(files: FileSystem, fn: Path, line: seq<char>)
    requires fn !in files && '\n' !in line
    ensures var t := TrimSpace(line);
      var recs := Records(AppendLine(files, fn, line)[fn]);
      |recs| == 1 && KeptLines(recs) == (if t == [] then [] else [t])
  {
    var t := TrimSpace(line);
    var c := AppendLine(files, fn, line)[fn];
    AppendRecord([], line);
    assert c == [] + (t + "\n");
    assert KeptLines(Records([])) == [];
  }

  /** An empty log loads as no lines and no records. */
  lemma LoadEmpty(files: FileSystem, fn: Path, limit: int)
    requires fn in files && files[fn] == []
    ensures LoadSpec(files, fn, limit, NoReadFaults) == Loaded([], 0, Ok)
  {
    assert Records([]) == [];
  }
}

=== FILE: history_model.dfy ===
/**
 * The history store as a value: its entries, its cursor and its version
 * counter, and the effect of each operation of `opHistory` on them.  The
 * class in module Store changes its fields step by step as the source
 * does and is proved to end in the state these functions describe; the
 * lemmas here state what that state means.
 */
module HistoryModel {
  import opened Io
  import opened Runes
  import opened Seqs

  /**
   * One history line: the committed text, the version stamp of the last
   * Update, and the draft, which is visible only while the stamp equals the
   * store's version.
   */
  datatype HisItem = HisItem(source: seq<char>, version: int, tmp: seq<char>)

  /** The item Push creates: version 0, no draft. */
  function Fresh(s: seq<char>): HisItem {
    HisItem(s, 0, [])
  }

  /** hisItem.Clean: both texts emptied, the version stamp kept. */
  function Clean(it: HisItem): HisItem {
    it.(source := [], tmp := [])
  }

  /**
   * The cursor: no element, the element at an index, or an element that
   * Compact has removed from the list while the cursor still pointed to it.
   * A removed element keeps its item but has no neighbours.
   */
  datatype Cursor = Nil | At(index: nat) | Detached(orphan: HisItem)

  /** The state of an opHistory that the operations below change: its items, its cursor and its version counter. */
  datatype Store = Store(items: seq<HisItem>, cursor: Cursor, ver: int)

  /** The text an item shows: its draft when stamped with the current version, else its committed text. */
  function Show(it: HisItem, ver: int): seq<char> {
    if it.version == ver then it.tmp else it.source
  }

  /** The committed texts of the items, in order. */
  function Sources(items: seq<HisItem>): seq<seq<char>> {
    seq(|items|, i requires 0 <= i < |items| => items[i].source)
  }

  predicate Stamped(it: HisItem, ver: int) {
    0 <= it.version <= ver
  }

  /**
   * What every reachable store satisfies: the version counter is not
   * negative, no stamp is newer than it, the cursor is inside the list, and
   * the cursor is nil only while the list is empty.
   */
  ghost predicate Inv(h: Store) {
    && h.ver >= 0
    && (forall i :: 0 <= i < |h.items| ==> Stamped(h.items[i], h.ver))
    && match h.cursor
       case Nil => h.items == []
       case At(i) => i < |h.items|
       case Detached(o) => Stamped(o, h.ver)
  }

  /** Bumping the version keeps every stamp within it. */
  lemma BumpKeepsInv(h: Store)
    requires Inv(h)
    ensures Inv(h.(ver := h.ver + 1))
  {
  }

  /** list.Back: the last element, or nil for an empty list. */
  function Back(items: seq<HisItem>): Cursor {
    if items == [] then Nil else At(|items| - 1)
  }

  /** The item the cursor points to. */
  function CursorItem(h: Store): HisItem
    requires Inv(h) && h.cursor != Nil
  {
    match h.cursor
    case At(i) => h.items[i]
    case Detached(o) => o
  }

  /** The store with the cursor's item replaced. */
  function WithCursorItem(h: Store, it: HisItem): (r: Store)
    requires Inv(h) && h.cursor != Nil
    ensures r.ver == h.ver && r.cursor.At? == h.cursor.At? && |r.items| == |h.items|
    ensures h.cursor.At? ==> r.items == h.items[h.cursor.index := it] && r.cursor == h.cursor
    ensures h.cursor.Detached? ==> r.items == h.items && r.cursor == Detached(it)
    ensures Stamped(it, h.ver) ==> Inv(r)
  {
    match h.cursor
    case At(i) =>
      var r := h.(items := h.items[i := it]);
      assert forall j :: 0 <= j < |r.items| ==> r.items[j] == h.items[j] || r.items[j] == it;
      r
    case Detached(_) => h.(cursor := Detached(it))
  }

  // ---------------------------------------------------------------- Push

  /** Push(s): append an item holding a copy of `s` and point the cursor at it. */
  function AfterPush(h: Store, s: seq<char>): (r: Store)
    ensures Inv(h) ==> Inv(r)
  {
    var r := h.(items := h.items + [Fresh(s)], cursor := At(|h.items|));
    assert forall j :: 0 <= j < |r.items| ==> r.items[j] == Fresh(s) || r.items[j] == h.items[j];
    r
  }

  lemma PushAppendsOne(h: Store, s: seq<char>)
    requires Inv(h)
    ensures var r := AfterPush(h, s);
      && Inv(r)
      && r.items[..|h.items|] == h.items
      && r.items[|h.items|] == HisItem(s, 0, [])
      && r.cursor == At(|r.items| - 1) && r.ver == h.ver
  {
  }

  // ------------------------------------------------------------- Compact

  /** How many items Compact leaves out of `n` for the given limit. */
  function Kept(n: nat, limit: int): nat {
    if limit <= 0 then 0 else if n > limit then limit else n
  }

  /** Where the cursor ends up when the first `k` items are removed. */
  function Shift(c: Cursor, items: seq<HisItem>, k: nat): Cursor
    requires k <= |items|
  {
    match c
    case At(i) => if i < k then Detached(items[i]) else At(i - k)
    case _ => c
  }

  /**
   * Compact: drop items from the front while the list is longer than the
   * limit and not empty.  A limit of zero or less empties the list.
   */
  function AfterCompact(h: Store, limit: int): (r: Store)
    ensures r.ver == h.ver
    ensures limit >= 0 ==> |r.items| <= limit
    ensures limit <= 0 ==> r.items == []
    ensures |r.items| == Kept(|h.items|, limit) <= |h.items|
    ensures r.items == h.items[|h.items| - |r.items|..]
    ensures !h.cursor.At? ==> r.cursor == h.cursor
    ensures Inv(h) ==> Inv(r)
  {
    var k := |h.items| - Kept(|h.items|, limit);
    h.(items := h.items[k..], cursor := Shift(h.cursor, h.items, k))
  }

  /** A list within a positive limit is left as it is. */
  lemma CompactFits(h: Store, limit: int)
    requires 0 < limit && |h.items| <= limit
    ensures AfterCompact(h, limit) == h
  {
    assert h.items[0..] == h.items;
  }

  /**
   * A cursor on a surviving item still points to the same item; a cursor on a
   * removed item is left holding it.
   */
  lemma CompactKeepsCursorItem(h: Store, limit: int)
    requires Inv(h) && h.cursor.At?
    ensures var r := AfterCompact(h, limit);
      && (r.cursor.At? ==> r.cursor.index < |r.items| && r.items[r.cursor.index] == h.items[h.cursor.index])
      && (!r.cursor.At? ==> r.cursor == Detached(h.items[h.cursor.index]))
  {
  }

  // -------------------------------------------------------------- Update

  /** The item after Update writes `s` into it as committed text or as draft. */
  function Stamp(it: HisItem, s: seq<char>, commit: bool, ver: int): HisItem {
    if commit then it.(source := s, version := ver) else it.(tmp := s, version := ver)
  }

  /**
   * Update(s, commit): with no cursor, Push then Compact; otherwise stamp
   * the cursor's item with the version, store `s` as its committed text or
   * its draft, then Compact.
   */
  function AfterUpdate(h: Store, s: seq<char>, commit: bool, limit: int): (r: Store)
    requires Inv(h)
    ensures Inv(r) && r.ver == h.ver
    ensures limit >= 0 ==> |r.items| <= limit
  {
    if h.cursor == Nil then
      var p := AfterPush(h, s);
      assert Inv(p);
      AfterCompact(p, limit)
    else
      var w := WithCursorItem(h, Stamp(CursorItem(h), s, commit, h.ver));
      assert Inv(w);
      AfterCompact(w, limit)
  }

  /** Update calls the writer's Append exactly when it commits through an existing cursor. */
  predicate UpdateAppends(h: Store, commit: bool) {
    commit && h.cursor != Nil
  }

  /** A draft never touches committed text: only compaction can change the committed texts. */
  lemma DraftKeepsSources(h: Store, s: seq<char>, limit: int)
    requires Inv(h) && h.cursor != Nil
    ensures Sources(AfterUpdate(h, s, false, limit).items) == Sources(AfterCompact(h, limit).items)
  {
    var w := WithCursorItem(h, Stamp(CursorItem(h), s, false, h.ver));
    assert forall j :: 0 <= j < |w.items| ==> w.items[j].source == h.items[j].source;
    var a := AfterCompact(w, limit).items;
    var b := AfterCompact(h, limit).items;
    var k := |h.items| - |b|;
    forall i | 0 <= i < |a| ensures a[i].source == b[i].source {
      assert a[i] == w.items[k + i];
      assert b[i] == h.items[k + i];
    }
  }

  /** A commit through an index cursor, below the limit, stores `s` in that item and nothing else changes. */
  lemma CommitWritesCursorItem(h: Store, s: seq<char>, limit: int)
    requires Inv(h) && h.cursor.At? && |h.items| <= limit
    ensures var r := AfterUpdate(h, s, true, limit);
      && r.cursor == h.cursor && |r.items| == |h.items|
      && r.items[h.cursor.index] == h.items[h.cursor.index].(source := s, version := h.ver)
      && forall j :: 0 <= j < |h.items| && j != h.cursor.index ==> r.items[j] == h.items[j]
  {
    var w := WithCursorItem(h, Stamp(CursorItem(h), s, true, h.ver));
    assert AfterUpdate(h, s, true, limit) == AfterCompact(w, limit);
    CompactFits(w, limit);
  }

  /** A draft through an index cursor, below the limit, touches only that item's draft and stamp. */
  lemma DraftWritesCursorItem(h: Store, s: seq<char>, limit: int)
    requires Inv(h) && h.cursor.At? && |h.items| <= limit
    ensures var r := AfterUpdate(h, s, false, limit);
      && r.cursor == h.cursor && |r.items| == |h.items|
      && r.items[h.cursor.index] == h.items[h.cursor.index].(tmp := s, version := h.ver)
      && forall j :: 0 <= j < |h.items| && j != h.cursor.index ==> r.items[j] == h.items[j]
  {
    var w := WithCursorItem(h, Stamp(CursorItem(h), s, false, h.ver));
    assert AfterUpdate(h, s, false, limit) == AfterCompact(w, limit);
    CompactFits(w, limit);
  }

  // ----------------------------------------------------------------- New

  /** The text equals the committed text of the item before the last one. */
  predicate IsResubmission(h: Store, text: seq<char>) {
    |h.items| >= 2 && text == h.items[|h.items| - 2].source
  }

  /** New does not add an item: a resubmission, or empty input on a non-empty list. */
  predicate Collapses(h: Store, text: seq<char>) {
    IsResubmission(h, text) || (text == [] && h.items != [])
  }

  /** Move the cursor to the last item, clean it, and bump the version. */
  function AfterCollapse(h: Store): (r: Store)
    requires Inv(h) && h.items != []
    ensures Inv(r) && r.ver == h.ver + 1 && |r.items| == |h.items|
    ensures r.cursor == At(|r.items| - 1)
    ensures r.items[..|h.items| - 1] == h.items[..|h.items| - 1]
    ensures r.items[|h.items| - 1] == Clean(h.items[|h.items| - 1])
  {
    var n := |h.items|;
    h.(items := h.items[n - 1 := Clean(h.items[n - 1])], cursor := At(n - 1), ver := h.ver + 1)
  }

  /**
   * The store New hands to Update and the line it commits: when the cursor
   * is not at the last item, the cursor moves there and the navigated item's
   * draft replaces the text.
   */
  function CommitTarget(h: Store, text: seq<char>): (r: (Store, seq<char>))
    requires Inv(h) && !Collapses(h, text)
    ensures Inv(r.0) && r.0.items == h.items && r.0.ver == h.ver
    ensures r.0.cursor == Back(h.items)
  {
    var h1 := if text == [] then h.(cursor := Back(h.items)) else h;
    if h1.cursor != Back(h1.items) then (h1.(cursor := Back(h1.items)), CursorItem(h1).tmp)
    else (h1, text)
  }

  /**
   * New(text), recording enabled: collapse a resubmission or an empty line;
   * otherwise commit the line into the last item, bump the version and push
   * an empty placeholder.
   */
  function AfterNew(h: Store, text: seq<char>, limit: int): (r: Store)
    requires Inv(h)
    ensures Inv(r) && r.ver == h.ver + 1
    ensures r.items != [] && r.cursor == At(|r.items| - 1)
  {
    if Collapses(h, text) then AfterCollapse(h) else AfterCommit(h, text, limit)
  }

  /** New without a collapse: Update the commit target, then bump and push the placeholder. */
  function AfterCommit(h: Store, text: seq<char>, limit: int): (r: Store)
    requires Inv(h) && !Collapses(h, text)
    ensures Inv(r) && r.ver == h.ver + 1
    ensures r.items != [] && r.cursor == At(|r.items| - 1)
  {
    var t := CommitTarget(h, text);
    BumpAndPush(AfterUpdate(t.0, t.1, true, limit))
  }

  /** The tail of New: bump the version and push the empty placeholder. */
  function BumpAndPush(h: Store): (r: Store)
    requires Inv(h)
    ensures Inv(r) && r.ver == h.ver + 1
    ensures r.items == h.items + [Fresh([])] && r.cursor == At(|h.items|)
  {
    BumpKeepsInv(h);
    AfterPush(h.(ver := h.ver + 1), [])
  }

  /** The line New passes to the writer's Append, if it calls it. */
  function NewAppends(h: Store, text: seq<char>): Option<seq<char>>
    requires Inv(h)
  {
    if Collapses(h, text) then None
    else
      var t := CommitTarget(h, text);
      if t.0.cursor != Nil then Some(t.1) else None
  }

  /** The line New commits: the text itself, or the navigated item's draft. */
  function CommittedLine(h: Store, text: seq<char>): seq<char>
    requires Inv(h) && !Collapses(h, text)
  {
    CommitTarget(h, text).1
  }

  /** After New the cursor rests on an item with neither committed text nor draft. */
  lemma NewEndsOnEmptyLine(h: Store, text: seq<char>, limit: int)
    requires Inv(h)
    ensures var r := AfterNew(h, text, limit);
      && r.items[|r.items| - 1].source == [] && r.items[|r.items| - 1].tmp == []
      && Show(r.items[r.cursor.index], r.ver) == []
  {
    if !Collapses(h, text) {
      var t := CommitTarget(h, text);
      assert AfterCommit(h, text, limit) == BumpAndPush(AfterUpdate(t.0, t.1, true, limit));
    }
  }

  /** A collapse adds nothing: same length, earlier items untouched, the last one cleaned. */
  lemma NewCollapse(h: Store, text: seq<char>, limit: int)
    requires Inv(h) && Collapses(h, text)
    ensures var r := AfterNew(h, text, limit);
      && |r.items| == |h.items|
      && r.items[..|h.items| - 1] == h.items[..|h.items| - 1]
      && r.items[|h.items| - 1] == Clean(h.items[|h.items| - 1])
  {
  }

  /**
   * A commit puts the committed line into the item before the new
   * placeholder, when the limit is positive; otherwise Compact drops it and
   * only the placeholder remains.
   */
  lemma NewCommits(h: Store, text: seq<char>, limit: int)
    requires Inv(h) && !Collapses(h, text)
    ensures var r := AfterNew(h, text, limit);
      && (limit >= 1 ==>
        && 2 <= |r.items| <= limit + 1
        && r.items[|r.items| - 2].source == CommittedLine(h, text)
        && r.items[|r.items| - 1] == Fresh([]))
      && (limit <= 0 ==> r.items == [Fresh([])])
  {
    var (h2, line) := CommitTarget(h, text);
    assert AfterNew(h, text, limit) == BumpAndPush(AfterUpdate(h2, line, true, limit));
    if limit <= 0 {
      assert AfterUpdate(h2, line, true, limit).items == [];
    } else if h.items == [] {
      CommitIntoEmpty(h2, line, limit);
    } else {
      CommitIntoLast(h2, line, limit);
    }
  }

  /** With no cursor yet, a commit pushes the line, and a positive limit keeps it. */
  lemma CommitIntoEmpty(h: Store, line: seq<char>, limit: int)
    requires Inv(h) && h.items == [] && h.cursor == Nil && limit >= 1
    ensures AfterUpdate(h, line, true, limit).items == [Fresh(line)]
  {
    var p := AfterPush(h, line);
    assert AfterUpdate(h, line, true, limit) == AfterCompact(p, limit);
    assert p.items == [Fresh(line)];
  }

  /** A commit through a cursor on the last item leaves the line in the last item. */
  lemma CommitIntoLast(h: Store, line: seq<char>, limit: int)
    requires Inv(h) && h.items != [] && h.cursor == Back(h.items) && limit >= 1
    ensures var u := AfterUpdate(h, line, true, limit);
      u.items != [] && u.items[|u.items| - 1].source == line
  {
    var w := WithCursorItem(h, Stamp(CursorItem(h), line, true, h.ver));
    var u := AfterUpdate(h, line, true, limit);
    assert u == AfterCompact(w, limit);
    assert w.items[|w.items| - 1].source == line;
  }

  /**
   * The line New commits is the text when the cursor is on the last item (or
   * there is no item yet), and otherwise the navigated item's raw draft,
   * whatever that item shows.
   */
  lemma NewCommittedLine(h: Store, text: seq<char>)
    requires Inv(h) && !Collapses(h, text)
    ensures h.cursor == Back(h.items) ==> CommittedLine(h, text) == text
    ensures text != [] && h.cursor != Nil && h.cursor != Back(h.items) ==> CommittedLine(h, text) == CursorItem(h).tmp
  {
  }

  /**
   * New commits the navigated item's raw draft even when that draft is stale:
   * an item showing "old" whose draft "draft" dates from an earlier version
   * commits "draft", not the text it shows or the text typed.
   */
  lemma NewCommitsStaleDraft()
    ensures var h := Store([HisItem("old", 0, "draft"), Fresh([])], At(0), 1);
      && Inv(h) && !Collapses(h, "typed")
      && Show(h.items[0], h.ver) == "old"
      && CommittedLine(h, "typed") == "draft"
  {
    var h := Store([HisItem("old", 0, "draft"), Fresh([])], At(0), 1);
    assert Stamped(h.items[0], 1) && Stamped(h.items[1], 1);
    assert h.items[|h.items| - 2].source != "typed" by {
      assert "old"[0] != "typed"[0];
    }
  }

  /**
   * On an empty list, as after an Init whose log could not be read, New
   * commits the line through Update's Push branch: the line is kept in
   * memory but the writer's Append is not called.
   */
  lemma FirstLineNotAppended(h: Store, text: seq<char>, limit: int)
    requires Inv(h) && h.items == [] && limit >= 1
    ensures NewAppends(h, text) == None
    ensures AfterNew(h, text, limit).items == [Fresh(CommittedLine(h, text)), Fresh([])]
    ensures h.cursor == Nil ==> CommittedLine(h, text) == text
  {
    assert !Collapses(h, text);
    var (h2, line) := CommitTarget(h, text);
    assert AfterNew(h, text, limit) == BumpAndPush(AfterUpdate(h2, line, true, limit));
    CommitIntoEmpty(h2, line, limit);
  }

  /** The list never grows past the limit plus the trailing placeholder. */
  lemma NewLengthBound(h: Store, text: seq<char>, limit: int)
    requires Inv(h) && |h.items| <= Kept(|h.items|, limit) + 1
    ensures |AfterNew(h, text, limit).items| <= (if limit > 0 then limit else 0) + 1
  {
  }

  /** New("") twice in a row leaves the same items as once. */
  lemma NewEmptyTwice(h: Store, limit: int)
    requires Inv(h) && h.items != []
    ensures AfterNew(AfterNew(h, [], limit), [], limit).items == AfterNew(h, [], limit).items
  {
  }

  /** Submitting the previous command again does not duplicate it. */
  lemma ResubmitDoesNotDuplicate(h: Store, limit: int)
    requires Inv(h) && |h.items| >= 2
    ensures var text := h.items[|h.items| - 2].source;
      var r := AfterNew(h, text, limit);
      |r.items| == |h.items| && r.items[|r.items| - 2].source == text
  {
  }

  // -------------------------------------------------------------- Revert

  /** Revert: bump the version and put the cursor on the last item. */
  function AfterRevert(h: Store): (r: Store)
    requires Inv(h)
    ensures Inv(r) && r.items == h.items && r.ver == h.ver + 1
    ensures r.cursor == (if h.items == [] then Nil else At(|h.items| - 1))
  {
    h.(ver := h.ver + 1, cursor := Back(h.items))
  }

  /** After Revert every item shows its committed text: all drafts are discarded. */
  lemma RevertShowsSources(h: Store)
    requires Inv(h)
    ensures var r := AfterRevert(h);
      forall i :: 0 <= i < |r.items| ==> Show(r.items[i], r.ver) == r.items[i].source
  {
    var r := AfterRevert(h);
    forall i | 0 <= i < |r.items| ensures Show(r.items[i], r.ver) == r.items[i].source {
      assert Stamped(h.items[i], h.ver);
    }
  }

  /**
   * Draft isolation: a draft written through the cursor and then reverted
   * leaves every item that survives the compaction showing its original
   * committed text.  With no cursor, Update pushes the draft as a committed
   * item instead, which is not a draft at all.
   */
  lemma DraftThenRevert(h: Store, draft: seq<char>, limit: int)
    requires Inv(h)
    ensures var r := AfterRevert(AfterUpdate(h, draft, false, limit));
      var k := |h.items| - Kept(|h.items|, limit);
      h.cursor != Nil ==>
        && |r.items| == |h.items| - k
        && forall i :: k <= i < |h.items| ==> Show(r.items[i - k], r.ver) == h.items[i].source
  {
    if h.cursor != Nil {
      DraftRevertSources(h, draft, limit);
      ShowsShiftedSources(AfterRevert(AfterUpdate(h, draft, false, limit)), h.items, |h.items| - Kept(|h.items|, limit));
    }
  }

  /** After a draft and a Revert, every item shows its committed text, and those are the surviving original ones. */
  lemma DraftRevertSources(h: Store, draft: seq<char>, limit: int)
    requires Inv(h) && h.cursor != Nil
    ensures var r := AfterRevert(AfterUpdate(h, draft, false, limit));
      && Sources(r.items) == Sources(h.items)[|h.items| - Kept(|h.items|, limit)..]
      && forall j :: 0 <= j < |r.items| ==> Show(r.items[j], r.ver) == r.items[j].source
  {
    var u := AfterUpdate(h, draft, false, limit);
    DraftKeepsSources(h, draft, limit);
    SourcesOfCompact(h, limit);
    RevertShowsSources(u);
  }

  /** Items that show their committed texts, which are those of `items` from `k` on, show those texts. */
  lemma ShowsShiftedSources(r: Store, items: seq<HisItem>, k: nat)
    requires k <= |items| && Sources(r.items) == Sources(items)[k..]
    requires forall j :: 0 <= j < |r.items| ==> Show(r.items[j], r.ver) == r.items[j].source
    ensures |r.items| == |items| - k
    ensures forall i :: k <= i < |items| ==> Show(r.items[i - k], r.ver) == items[i].source
  {
    assert |Sources(r.items)| == |items| - k;
    forall i | k <= i < |items| ensures Show(r.items[i - k], r.ver) == items[i].source {
      assert Sources(r.items)[i - k] == Sources(items)[i];
    }
  }

  // ----------------------------------------------------------- Prev, Next

  /** Prev: move one step toward older items and show the new cursor's text, or stay and answer nil. */
  function AfterPrev(h: Store): (r: (Store, Option<seq<char>>))
    requires Inv(h)
    ensures Inv(r.0) && r.0.items == h.items && r.0.ver == h.ver
    ensures r.1.None? <==> r.0 == h
    ensures r.1.Some? <==> h.cursor.At? && h.cursor.index > 0
    ensures r.1.Some? ==> r.0.cursor == At(h.cursor.index - 1) && r.1.value == Show(CursorItem(r.0), h.ver)
  {
    match h.cursor
    case At(i) =>
      if i > 0 then (h.(cursor := At(i - 1)), Some(Show(h.items[i - 1], h.ver))) else (h, None)
    case _ => (h, None)
  }

  /** Next: move one step toward newer items and show the new cursor's text, or stay and answer false. */
  function AfterNext(h: Store): (r: (Store, seq<char>, bool))
    requires Inv(h)
    ensures Inv(r.0) && r.0.items == h.items && r.0.ver == h.ver
    ensures !r.2 <==> r.0 == h
    ensures !r.2 ==> r.1 == []
    ensures r.2 <==> h.cursor.At? && h.cursor.index + 1 < |h.items|
    ensures r.2 ==> r.0.cursor == At(h.cursor.index + 1) && r.1 == Show(CursorItem(r.0), h.ver)
  {
    match h.cursor
    case At(i) =>
      if i + 1 < |h.items| then (h.(cursor := At(i + 1)), Show(h.items[i + 1], h.ver), true) else (h, [], false)
    case _ => (h, [], false)
  }

  /** A step back followed by a step forward returns to the same item and shows its text. */
  lemma PrevThenNext(h: Store)
    requires Inv(h) && AfterPrev(h).1.Some?
    ensures AfterNext(AfterPrev(h).0) == (h, Show(CursorItem(h), h.ver), true)
  {
  }

  /** A step forward followed by a step back returns to the same item and shows its text. */
  lemma NextThenPrev(h: Store)
    requires Inv(h) && AfterNext(h).2
    ensures AfterPrev(AfterNext(h).0) == (h, Some(Show(CursorItem(h), h.ver)))
  {
  }

  // ---------------------------------------------------------------- Init

  /** Push then Compact each loaded line, oldest first. */
  function PushAll(h: Store, lines: seq<seq<char>>, limit: int): Store
  {
    if lines == [] then h
    else AfterCompact(AfterPush(PushAll(h, lines[..|lines| - 1], limit), lines[|lines| - 1]), limit)
  }

  lemma PushAllSnoc(h: Store, lines: seq<seq<char>>, line: seq<char>, limit: int)
    ensures PushAll(h, lines + [line], limit) == AfterCompact(AfterPush(PushAll(h, lines, limit), line), limit)
  {
    assert (lines + [line])[..|lines|] == lines;
  }

  /** A fresh item for each line, in order. */
  function FreshItems(lines: seq<seq<char>>): (r: seq<HisItem>)
    ensures |r| == |lines| && forall j :: 0 <= j < |lines| ==> r[j] == Fresh(lines[j])
  {
    if lines == [] then [] else FreshItems(lines[..|lines| - 1]) + [Fresh(lines[|lines| - 1])]
  }

  /** initHistory after a successful Load: push the lines, bump the version, push the placeholder. */
  function AfterInit(h: Store, lines: seq<seq<char>>, limit: int): Store {
    var p := PushAll(h, lines, limit);
    AfterPush(p.(ver := p.ver + 1), [])
  }

  lemma {:induction false} PushAllInv(h: Store, lines: seq<seq<char>>, limit: int)
    requires Inv(h)
    ensures Inv(PushAll(h, lines, limit)) && PushAll(h, lines, limit).ver == h.ver
  {
    if lines != [] {
      PushAllInv(h, lines[..|lines| - 1], limit);
    }
  }

  /** Pushing lines that fit under the limit appends them as fresh items, in order. */
  lemma {:induction false} PushAllFits(h: Store, lines: seq<seq<char>>, limit: int)
    requires |h.items| + |lines| <= limit
    ensures PushAll(h, lines, limit).items == h.items + FreshItems(lines)
  {
    if lines != [] {
      var n := |lines|;
      var p := PushAll(h, lines[..n - 1], limit);
      assert p.items == h.items + FreshItems(lines[..n - 1]) by {
        PushAllFits(h, lines[..n - 1], limit);
      }
      var q := AfterPush(p, lines[n - 1]);
      assert PushAll(h, lines, limit) == q by {
        assert AfterCompact(q, limit) == q;
      }
      assert FreshItems(lines) == FreshItems(lines[..n - 1]) + [Fresh(lines[n - 1])];
      ConcatAssoc(h.items, FreshItems(lines[..n - 1]), [Fresh(lines[n - 1])]);
    }
  }

  lemma SourcesSnoc(items: seq<HisItem>, it: HisItem)
    ensures Sources(items + [it]) == Sources(items) + [it.source]
  {
  }

  lemma SourcesOfCompact(h: Store, limit: int)
    ensures var k := |h.items| - Kept(|h.items|, limit);
      Sources(AfterCompact(h, limit).items) == Sources(h.items)[k..]
  {
  }

  /** With a positive limit, pushing into an empty list keeps exactly the newest `limit` lines. */
  lemma {:induction false} PushAllKeepsNewest(h: Store, lines: seq<seq<char>>, limit: int)
    requires limit > 0 && h.items == []
    ensures Sources(PushAll(h, lines, limit).items) == lines[|lines| - Kept(|lines|, limit)..]
  {
    if lines != [] {
      var n := |lines|;
      var front := lines[..n - 1];
      PushAllKeepsNewest(h, front, limit);
      KeepsNewestStep(PushAll(h, front, limit), front, lines[n - 1], limit);
      SplitLast(lines);
      PushAllSnoc(h, front, lines[n - 1], limit);
    }
  }

  /** If the list holds the newest lines that fit, pushing one more line and compacting keeps that so. */
  lemma KeepsNewestStep(p: Store, front: seq<seq<char>>, line: seq<char>, limit: int)
    requires limit > 0 && Sources(p.items) == front[|front| - Kept(|front|, limit)..]
    ensures var lines := front + [line];
      Sources(AfterCompact(AfterPush(p, line), limit).items) == lines[|lines| - Kept(|lines|, limit)..]
  {
    var lines := front + [line];
    var q := AfterPush(p, line);
    SourcesSnoc(p.items, Fresh(line));
    SourcesOfCompact(q, limit);
    assert lines[..|lines| - 1] == front;
    WindowStep(lines, limit);
  }

  /** The newest lines that fit, plus one more, cut back to the limit, are the newest lines that fit. */
  lemma WindowStep<T>(xs: seq<T>, limit: int)
    requires limit > 0 && xs != []
    ensures var n := |xs|;
      var kf := Kept(n - 1, limit);
      (xs[..n - 1][n - 1 - kf..] + [xs[n - 1]])[kf + 1 - Kept(n, limit)..] == xs[n - Kept(n, limit)..]
  {
    var n := |xs|;
    if n - 1 >= limit {
      assert Kept(n - 1, limit) == limit && Kept(n, limit) == limit;
      var ys := xs[..n - 1][n - 1 - limit..] + [xs[n - 1]];
      assert ys == xs[n - 1 - limit..];
      assert ys[1..] == xs[n - limit..];
    } else {
      assert Kept(n - 1, limit) == n - 1 && Kept(n, limit) == n;
      assert xs[..n - 1][0..] + [xs[n - 1]] == xs;
    }
  }

  /**
   * Init on an empty list with lines that fit under the limit: the lines in
   * order, then the empty placeholder under the cursor; each line shows itself.
   */
  lemma InitFromLog(h: Store, lines: seq<seq<char>>, limit: int)
    requires Inv(h) && h.items == [] && |lines| <= limit
    ensures var r := AfterInit(h, lines, limit);
      && Sources(r.items) == lines + [[]]
      && r.cursor == At(|lines|) && r.ver == h.ver + 1
      && forall j :: 0 <= j < |lines| ==> Show(r.items[j], r.ver) == lines[j]
  {
    var p := PushAll(h, lines, limit);
    assert p.ver == h.ver by {
      PushAllInv(h, lines, limit);
    }
    assert p.items == FreshItems(lines) by {
      PushAllFits(h, lines, limit);
    }
    var r := AfterInit(h, lines, limit);
    assert r.items == p.items + [Fresh([])] && r.ver == h.ver + 1 && r.cursor == At(|lines|);
    assert Sources(r.items) == lines + [[]] by {
      assert forall j :: 0 <= j < |lines| ==> r.items[j].source == lines[j];
    }
    assert forall j :: 0 <= j < |lines| ==> Show(r.items[j], r.ver) == lines[j] by {
      assert forall j :: 0 <= j < |lines| ==> r.items[j] == Fresh(lines[j]);
    }
  }

  // --------------------------------------------------------------- Search

  /** The element a search visits may be any list index or the cursor's own removed element. */
  predicate ValidElem(h: Store, e: Cursor) {
    match e
    case Nil => false
    case At(i) => i < |h.items|
    case Detached(_) => e == h.cursor
  }

  function ElemItem(h: Store, e: Cursor): HisItem
    requires ValidElem(h, e)
  {
    match e
    case At(i) => h.items[i]
    case Detached(o) => o
  }

  /** The element before `e` (list.Element.Prev); a removed element has none. */
  function PrevElem(e: Cursor): Cursor {
    match e
    case At(i) => if i > 0 then At(i - 1) else Nil
    case _ => Nil
  }

  /** The element after `e` (list.Element.Next); a removed element has none. */
  function NextElem(h: Store, e: Cursor): Cursor {
    match e
    case At(i) => if i + 1 < |h.items| then At(i + 1) else Nil
    case _ => Nil
  }

  /** The window FindBck searches in the cursor's item: `start` runes, plus the pattern's length on a new search. */
  function BckCut(isNewSearch: bool, rs: seq<char>, start: int): int {
    if isNewSearch then start + |rs| else start
  }

  /** The text FindBck searches in element `e`: its shown text, cut to `cut` runes in the cursor's item. */
  function BckText(h: Store, e: Cursor, cut: nat): seq<char>
    requires ValidElem(h, e)
  {
    var t := Show(ElemItem(h, e), h.ver);
    if e == h.cursor && |t| >= cut then t[..cut] else t
  }

  /** The offset FindBck reports for element `e`: the last match in its searched text, or -1. */
  function BckHit(h: Store, e: Cursor, cut: nat, rs: seq<char>, fold: bool): int
    requires ValidElem(h, e)
  {
    LastIndex(BckText(h, e, cut), rs, fold)
  }

  /** Where FindFwd starts in the cursor's item: `start`, less the pattern's length (not below 0) on a new search. */
  function FwdCut(isNewSearch: bool, rs: seq<char>, start: int): int {
    if !isNewSearch then start else if start - |rs| < 0 then 0 else start - |rs|
  }

  /**
   * The offset FindFwd reports for element `e`: the first match, searched
   * from `cut` in the cursor's item (which is skipped when `cut` is past its
   * last rune) and reported relative to the whole text; -1 when none.
   */
  function FwdHit(h: Store, e: Cursor, cut: nat, rs: seq<char>, fold: bool): int
    requires ValidElem(h, e)
  {
    var t := Show(ElemItem(h, e), h.ver);
    if e != h.cursor then FirstIndex(t, rs, fold)
    else if |t| - 1 >= cut then
      var i := FirstIndex(t[cut..], rs, fold);
      if i < 0 then -1 else i + cut
    else -1
  }

  /**
   * A backward hit is the last match in the shown text that ends within the
   * window; in the cursor's item nothing after the window is considered.
   */
  lemma BckHitMeaning(h: Store, e: Cursor, cut: nat, rs: seq<char>, fold: bool)
    requires ValidElem(h, e)
    ensures var t := Show(ElemItem(h, e), h.ver);
      var r := BckHit(h, e, cut, rs, fold);
      var bound := if e == h.cursor && |t| >= cut then cut else |t|;
      && (r == -1 || (MatchAt(t, rs, r, fold) && r + |rs| <= bound))
      && forall i :: r < i && i + |rs| <= bound ==> !MatchAt(t, rs, i, fold)
  {
    var t := Show(ElemItem(h, e), h.ver);
    var r := BckHit(h, e, cut, rs, fold);
    if e == h.cursor && |t| >= cut {
      MatchInPrefix(t, rs, cut, r, fold);
      forall i | r < i && i + |rs| <= cut ensures !MatchAt(t, rs, i, fold) {
        MatchInPrefix(t, rs, cut, i, fold);
      }
    }
  }

  /**
   * A forward hit is a match in the shown text, at an offset relative to the
   * whole text; in the cursor's item it lies at or after the cut and is the
   * first such match.
   */
  lemma FwdHitMeaning(h: Store, e: Cursor, cut: nat, rs: seq<char>, fold: bool)
    requires ValidElem(h, e)
    ensures var t := Show(ElemItem(h, e), h.ver);
      var r := FwdHit(h, e, cut, rs, fold);
      var from := if e == h.cursor then cut else 0;
      && (r == -1 || (from <= r && MatchAt(t, rs, r, fold)))
      && (e != h.cursor || |t| > cut ==> forall i :: from <= i && (r == -1 || i < r) ==> !MatchAt(t, rs, i, fold))
  {
    var t := Show(ElemItem(h, e), h.ver);
    var r := FwdHit(h, e, cut, rs, fold);
    if e == h.cursor && |t| - 1 >= cut {
      var i0 := FirstIndex(t[cut..], rs, fold);
      MatchInSuffix(t, rs, cut, i0, fold);
      forall i | cut <= i && (r == -1 || i < r) ensures !MatchAt(t, rs, i, fold) {
        MatchInSuffix(t, rs, cut, i - cut, fold);
      }
    }
  }
}

=== FILE: io.dfy ===
/**
 * Outcomes of the operations that touch the outside world: the history
 * writer and the file system.  The model never performs I/O; whether a call
 * succeeds is an input to the operation that makes it.
 */
module Io {

  /** Which I/O step failed. */
  datatype IoFailure =
    | OpenFailed
    | ReadFailed
    | WriteFailed
    | FlushFailed
    | RenameFailed
    | CloseFailed

  /** A Go `error` value: nil or some failure. */
  datatype Outcome = Ok | Fail(failure: IoFailure)

  /** A value together with a nil error, or a failure. */
  datatype Result<T> = Success(value: T) | Failure(failure: IoFailure)

  datatype Option<T> = None | Some(value: T)
}

=== FILE: log_format.dfy ===
/**
 * The text format of the history log: one line per record, each record
 * ended by a newline.  Reading splits the text into newline-terminated
 * records (an unterminated tail is no record), trims each one, skips the
 * blank ones and keeps a sliding window of the newest lines; writing puts
 * each line followed by a newline.
 */
module LogFormat {
  import opened Runes
  import opened Seqs

  /** The offset of the first newline in `s`, or |s| when there is none. */
  function NewlineAt(s: seq<char>): (r: nat)
    ensures r <= |s| && (r < |s| ==> s[r] == '\n')
    ensures forall i :: 0 <= i < r ==> s[i] != '\n'
  {
    if s == [] then 0
    else if s[0] == '\n' then 0
    else 1 + NewlineAt(s[1..])
  }

  /** A record: text without a newline, then one newline. */
  predicate IsRecord(r: seq<char>) {
    r != [] && r[|r| - 1] == '\n' && '\n' !in r[..|r| - 1]
  }

  /**
   * bufio.Reader.ReadString('\n') called until it fails: the
   * newline-terminated records of `c`, each with its newline.  Text after
   * the last newline is not a record.
   */
  function Records(c: seq<char>): seq<seq<char>>
    decreases |c|
  {
    var i := NewlineAt(c);
    if i == |c| then [] else [c[..i + 1]] + Records(c[i + 1..])
  }

  /** Every piece Records cuts is a record: one newline, at its end. */
  lemma {:induction false} RecordsAreRecords(c: seq<char>)
    ensures forall k :: 0 <= k < |Records(c)| ==> IsRecord(Records(c)[k])
    decreases |c|
  {
    var i := NewlineAt(c);
    if i < |c| {
      RecordsAreRecords(c[i + 1..]);
      assert c[..i + 1][..i] == c[..i];
      assert IsRecord(c[..i + 1]);
    }
  }

  /** Text that is empty or ends in a newline: all of it is records. */
  predicate Terminated(c: seq<char>) {
    c == [] || c[|c| - 1] == '\n'
  }

  /** A line the log can hold and read back as itself: not blank, trimmed, no newline. */
  predicate WellFormedLine(l: seq<char>) {
    l != [] && Trimmed(l) && '\n' !in l
  }

  /** The lines _load takes from the records, in order: each one trimmed, the blank ones skipped. */
  function KeptLines(recs: seq<seq<char>>): (r: seq<seq<char>>)
    ensures |r| <= |recs|
  {
    if recs == [] then []
    else
      var t := TrimSpace(recs[|recs| - 1]);
      KeptLines(recs[..|recs| - 1]) + (if t == [] then [] else [t])
  }

  /** The lines kept from records are well formed: not blank, trimmed, free of newlines. */
  lemma {:induction false} KeptLinesWellFormed(recs: seq<seq<char>>)
    requires forall k :: 0 <= k < |recs| ==> IsRecord(recs[k])
    ensures forall k :: 0 <= k < |KeptLines(recs)| ==> WellFormedLine(KeptLines(recs)[k])
  {
    if recs != [] {
      KeptLinesWellFormed(recs[..|recs| - 1]);
      RecordLineWellFormed(recs[|recs| - 1]);
    }
  }

  /** The trimmed text of a record holds no newline. */
  lemma RecordLineWellFormed(r: seq<char>)
    requires IsRecord(r)
    ensures TrimSpace(r) == [] || WellFormedLine(TrimSpace(r))
  {
    var t := TrimSpace(r);
    if t != [] {
      TrimSpaceTrimmed(r);
      TrimSpaceDropsLast(r);
      TrimSpaceIsSlice(r);
      var o := TrimOffset(r);
      forall j | 0 <= j < |t| ensures t[j] != '\n' {
        assert t[j] == r[..|r| - 1][o + j];
      }
    }
  }

  /**
   * The sliding window of _load: with a positive limit only the newest
   * `limit` lines, otherwise all of them.
   */
  function Window<T>(xs: seq<T>, limit: int): seq<T> {
    if limit > 0 && |xs| > limit then xs[|xs| - limit..] else xs
  }

  /** The window is the newest min(limit, |xs|) elements, or all of them when the limit is not positive. */
  lemma WindowKeepsNewest<T>(xs: seq<T>, limit: int)
    ensures var r := Window(xs, limit);
      && (limit > 0 ==> |r| <= limit)
      && |r| == (if limit > 0 && |xs| > limit then limit else |xs|)
      && r == xs[|xs| - |r|..]
  {
    if !(limit > 0 && |xs| > limit) {
      assert xs[0..] == xs;
    }
  }

  /** One step of _load's window: append, then drop the oldest line when over a positive limit. */
  function Slide<T>(ws: seq<T>, x: T, limit: int): seq<T> {
    var w := ws + [x];
    if limit > 0 && |w| > limit then w[1..] else w
  }

  /** Sliding line by line gives the window of the whole sequence. */
  lemma WindowSnoc<T>(xs: seq<T>, x: T, limit: int)
    ensures Window(xs + [x], limit) == Slide(Window(xs, limit), x, limit)
  {
    var ys := xs + [x];
    if limit > 0 && |ys| > limit {
      if |xs| > limit {
        assert (xs[|xs| - limit..] + [x])[1..] == ys[|ys| - limit..];
      } else {
        assert |xs| == limit;
        assert (xs + [x])[1..] == ys[|ys| - limit..];
      }
    }
  }

  /** The window of a window is the same window: compaction is idempotent. */
  lemma WindowIdempotent<T>(xs: seq<T>, limit: int)
    ensures Window(Window(xs, limit), limit) == Window(xs, limit)
  {
  }

  /** What _rewrite writes: each line followed by a newline, in order. */
  function Serialise(lines: seq<seq<char>>): (r: seq<char>)
    ensures Terminated(r)
  {
    if lines == [] then []
    else Serialise(lines[..|lines| - 1]) + lines[|lines| - 1] + "\n"
  }

  /** Records of terminated text followed by more text are the records of each part. */
  lemma {:induction false} RecordsConcat(c: seq<char>, d: seq<char>)
    requires Terminated(c)
    ensures Records(c + d) == Records(c) + Records(d)
    decreases |c|
  {
    if c != [] {
      var i := NewlineAt(c);
      assert i < |c|;
      var cd := c + d;
      assert NewlineAt(cd) == i by {
        NewlineAtPrefix(c, d);
      }
      assert cd[..i + 1] == c[..i + 1];
      assert cd[i + 1..] == c[i + 1..] + d;
      assert Terminated(c[i + 1..]);
      RecordsConcat(c[i + 1..], d);
      assert Records(cd) == [cd[..i + 1]] + Records(cd[i + 1..]);
      assert Records(c) == [c[..i + 1]] + Records(c[i + 1..]);
      ConcatAssoc([c[..i + 1]], Records(c[i + 1..]), Records(d));
    } else {
      assert c + d == d;
    }
  }

  /** A newline inside `c` is found before anything appended after it. */
  lemma NewlineAtPrefix(c: seq<char>, d: seq<char>)
    requires NewlineAt(c) < |c|
    ensures NewlineAt(c + d) == NewlineAt(c)
  {
    var i := NewlineAt(c);
    var cd := c + d;
    assert cd[i] == '\n';
    assert forall j :: 0 <= j < i ==> cd[j] == c[j];
    NewlineAtFirst(cd, i);
  }

  /** NewlineAt is the first newline. */
  lemma {:induction false} NewlineAtFirst(s: seq<char>, i: nat)
    requires i < |s| && s[i] == '\n' && forall j :: 0 <= j < i ==> s[j] != '\n'
    ensures NewlineAt(s) == i
    decreases i
  {
    if i > 0 {
      assert s[1..][i - 1] == '\n';
      NewlineAtFirst(s[1..], i - 1);
    }
  }

  /** A line without a newline, followed by one, is exactly one record. */
  lemma RecordsOfLine(l: seq<char>)
    requires '\n' !in l
    ensures Records(l + "\n") == [l + "\n"]
  {
    var s := l + "\n";
    NewlineAtFirst(s, |l|);
    assert s[|l| + 1..] == [];
    assert s[..|l| + 1] == s;
  }

  /** The records of serialised lines are the lines, each with its newline. */
  lemma {:induction false} RecordsOfSerialise(lines: seq<seq<char>>)
    requires forall k :: 0 <= k < |lines| ==> '\n' !in lines[k]
    ensures var recs := Records(Serialise(lines));
      |recs| == |lines| && forall k :: 0 <= k < |lines| ==> recs[k] == lines[k] + "\n"
  {
    if lines != [] {
      var n := |lines|;
      var front := lines[..n - 1];
      RecordsOfSerialise(front);
      var a := Records(Serialise(front));
      RecordsOfSerialiseSnoc(lines);
      var recs := a + [lines[n - 1] + "\n"];
      forall k | 0 <= k < n ensures recs[k] == lines[k] + "\n" {
        if k < n - 1 {
          assert recs[k] == a[k] && front[k] == lines[k];
        }
      }
    }
  }

  /** Serialising one more line adds exactly its record. */
  lemma RecordsOfSerialiseSnoc(lines: seq<seq<char>>)
    requires lines != [] && '\n' !in lines[|lines| - 1]
    ensures var n := |lines|;
      Records(Serialise(lines)) == Records(Serialise(lines[..n - 1])) + [lines[n - 1] + "\n"]
  {
    var n := |lines|;
    var front := lines[..n - 1];
    assert Serialise(lines) == Serialise(front) + (lines[n - 1] + "\n");
    RecordsConcat(Serialise(front), lines[n - 1] + "\n");
    RecordsOfLine(lines[n - 1]);
  }

  /** Reading trimmed, non-blank lines back from their records gives the same lines. */
  lemma {:induction false} KeptLinesOfTerminated(lines: seq<seq<char>>, recs: seq<seq<char>>)
    requires |recs| == |lines|
    requires forall k :: 0 <= k < |lines| ==> WellFormedLine(lines[k]) && recs[k] == lines[k] + "\n"
    ensures KeptLines(recs) == lines
  {
    if lines != [] {
      var n := |lines|;
      KeptLinesOfTerminated(lines[..n - 1], recs[..n - 1]);
      TrimSpaceOfTerminated(lines[n - 1]);
      SplitLast(lines);
    }
  }

  /** Round trip: the log written from well-formed lines reads back as exactly those lines, one record each. */
  lemma ReadSerialised(lines: seq<seq<char>>)
    requires forall k :: 0 <= k < |lines| ==> WellFormedLine(lines[k])
    ensures var recs := Records(Serialise(lines));
      |recs| == |lines| && KeptLines(recs) == lines
  {
    RecordsOfSerialise(lines);
    KeptLinesOfTerminated(lines, Records(Serialise(lines)));
  }

  /** KeptLines of a record sequence with one more record at the end. */
  lemma KeptLinesSnoc(recs: seq<seq<char>>, r: seq<char>)
    ensures var t := TrimSpace(r);
      KeptLines(recs + [r]) == KeptLines(recs) + (if t == [] then [] else [t])
  {
    assert (recs + [r])[..|recs|] == recs;
  }

  /**
   * Appending a trimmed line and a newline to terminated text adds exactly
   * one record, and the line read back from it is the trimmed line (none
   * when it is blank).
   */
  lemma AppendRecord(c: seq<char>, line: seq<char>)
    requires Terminated(c) && '\n' !in line
    ensures var t := TrimSpace(line);
      && Records(c + (t + "\n")) == Records(c) + [t + "\n"]
      && KeptLines(Records(c + (t + "\n"))) == KeptLines(Records(c)) + (if t == [] then [] else [t])
  {
    var t := TrimSpace(line);
    TrimSpaceKeepsNoNewline(line);
    RecordsConcat(c, t + "\n");
    RecordsOfLine(t);
    KeptLinesSnoc(Records(c), t + "\n");
    TrimSpaceOfRecord(line);
  }

  /** Trimming text without a newline cannot produce one. */
  lemma TrimSpaceKeepsNoNewline(line: seq<char>)
    requires '\n' !in line
    ensures '\n' !in TrimSpace(line)
  {
    var t := TrimSpace(line);
    var o := TrimOffset(line);
    TrimSpaceIsSlice(line);
    forall j | 0 <= j < |t| ensures t[j] != '\n' {
      assert t[j] == line[o + j];
    }
  }

  /** The record written for a line trims back to the trimmed line. */
  lemma TrimSpaceOfRecord(line: seq<char>)
    ensures TrimSpace(TrimSpace(line) + "\n") == TrimSpace(line)
  {
    var t := TrimSpace(line);
    if t != [] {
      TrimSpaceTrimmed(line);
      TrimSpaceOfTerminated(t);
    } else {
      assert t + "\n" == "\n";
      assert TrimLeft("\n") == [];
    }
  }
}

=== FILE: runes.dfy ===
/**
 * Rune-level helpers the history core relies on: white space and its
 * trimming (Go's `unicode.IsSpace` and `strings.TrimSpace`), and pattern
 * matching with an optional case fold (the first and last occurrence of a
 * pattern, as the history searches use them).
 */
module Runes {

  /**
   * The white-space runes of Go's unicode.IsSpace as inclusive code-point
   * ranges: tab to carriage return, space, NEL, NO-BREAK SPACE, and the
   * Unicode White_Space runes above Latin-1.
   */
  const SpaceRanges: seq<(int, int)> := [
    (0x09, 0x0D), (0x20, 0x20), (0x85, 0x85), (0xA0, 0xA0), (0x1680, 0x1680),
    (0x2000, 0x200A), (0x2028, 0x2029), (0x202F, 0x202F), (0x205F, 0x205F), (0x3000, 0x3000)
  ]

  /** `n` lies in one of the ranges. */
  predicate InRanges(n: int, ranges: seq<(int, int)>) {
    ranges != [] && (ranges[0].0 <= n <= ranges[0].1 || InRanges(n, ranges[1..]))
  }

  /** Go's unicode.IsSpace. */
  predicate IsSpace(c: char) {
    InRanges(c as int, SpaceRanges)
  }

  /** Neither end of `s` is white space. */
  predicate Trimmed(s: seq<char>) {
    s == [] || (!IsSpace(s[0]) && !IsSpace(s[|s| - 1]))
  }

  /** `s` without its leading white space. */
  function TrimLeft(s: seq<char>): (r: seq<char>)
    ensures |r| <= |s|
  {
    if s != [] && IsSpace(s[0]) then TrimLeft(s[1..]) else s
  }

  /** `s` without its trailing white space. */
  function TrimRight(s: seq<char>): (r: seq<char>)
    ensures |r| <= |s|
  {
    if s != [] && IsSpace(s[|s| - 1]) then TrimRight(s[..|s| - 1]) else s
  }

  /** TrimLeft keeps a suffix of `s`. */
  lemma {:induction false} TrimLeftIsSuffix(s: seq<char>)
    ensures TrimLeft(s) == s[|s| - |TrimLeft(s)|..]
  {
    if s != [] && IsSpace(s[0]) {
      TrimLeftIsSuffix(s[1..]);
      assert s[1..][|s| - 1 - |TrimLeft(s)|..] == s[|s| - |TrimLeft(s)|..];
    }
  }

  /** TrimRight keeps a prefix of `s`. */
  lemma {:induction false} TrimRightIsPrefix(s: seq<char>)
    ensures TrimRight(s) == s[..|TrimRight(s)|]
  {
    if s != [] && IsSpace(s[|s| - 1]) {
      TrimRightIsPrefix(s[..|s| - 1]);
      assert s[..|s| - 1][..|TrimRight(s)|] == s[..|TrimRight(s)|];
    }
  }

  /** TrimLeft drops white space only. */
  lemma {:induction false} TrimLeftDropsSpace(s: seq<char>)
    ensures forall i :: 0 <= i < |s| - |TrimLeft(s)| ==> IsSpace(s[i])
  {
    if s != [] && IsSpace(s[0]) {
      TrimLeftDropsSpace(s[1..]);
      forall i | 0 <= i < |s| - |TrimLeft(s)| ensures IsSpace(s[i]) {
        if i > 0 {
          assert s[i] == s[1..][i - 1];
        }
      }
    }
  }

  /** TrimRight drops white space only. */
  lemma {:induction false} TrimRightDropsSpace(s: seq<char>)
    ensures forall i :: |TrimRight(s)| <= i < |s| ==> IsSpace(s[i])
  {
    if s != [] && IsSpace(s[|s| - 1]) {
      TrimRightDropsSpace(s[..|s| - 1]);
      forall i | |TrimRight(s)| <= i < |s| ensures IsSpace(s[i]) {
        if i < |s| - 1 {
          assert s[i] == s[..|s| - 1][i];
        }
      }
    }
  }

  /** How many runes of leading white space TrimSpace drops from `s`. */
  function TrimOffset(s: seq<char>): nat {
    |s| - |TrimLeft(s)|
  }

  /** strings.TrimSpace: the longest slice of `s` with no white space at either end. */
  function TrimSpace(s: seq<char>): (r: seq<char>)
    ensures |r| <= |s|
  {
    TrimRight(TrimLeft(s))
  }

  /** What TrimLeft keeps does not start with white space. */
  lemma {:induction false} TrimLeftStart(s: seq<char>)
    ensures TrimLeft(s) == [] || !IsSpace(TrimLeft(s)[0])
  {
    if s != [] && IsSpace(s[0]) {
      TrimLeftStart(s[1..]);
    }
  }

  /** What TrimRight keeps does not end with white space. */
  lemma {:induction false} TrimRightEnd(s: seq<char>)
    ensures TrimRight(s) == [] || !IsSpace(TrimRight(s)[|TrimRight(s)| - 1])
  {
    if s != [] && IsSpace(s[|s| - 1]) {
      TrimRightEnd(s[..|s| - 1]);
    }
  }

  /** strings.TrimSpace leaves no white space at either end. */
  lemma TrimSpaceTrimmed(s: seq<char>)
    ensures Trimmed(TrimSpace(s))
  {
    var l := TrimLeft(s);
    var r := TrimRight(l);
    TrimLeftStart(s);
    TrimRightEnd(l);
    TrimRightIsPrefix(l);
    if r != [] {
      assert r[0] == l[0];
    }
  }

  /** The trimmed text is the slice of `s` that starts after the leading white space. */
  lemma TrimSpaceIsSlice(s: seq<char>)
    ensures var r := TrimSpace(s);
      TrimOffset(s) + |r| <= |s| && r == s[TrimOffset(s)..TrimOffset(s) + |r|]
  {
    var l := TrimLeft(s);
    var r := TrimRight(l);
    TrimLeftIsSuffix(s);
    TrimRightIsPrefix(l);
    SliceOfSlice(s, |s| - |l|, |r|);
  }

  /**
   * strings.TrimSpace drops white space only: everything before the kept
   * slice and everything after it is white space.
   */
  lemma TrimSpaceDropsSpace(s: seq<char>)
    ensures var o := TrimOffset(s);
      var r := TrimSpace(s);
      && (forall i :: 0 <= i < o ==> IsSpace(s[i]))
      && (forall i :: o + |r| <= i < |s| ==> IsSpace(s[i]))
  {
    TrimLeftDropsSpace(s);
    TrimSpaceDropsTrailing(s);
  }

  /** What TrimSpace drops after the kept slice is white space. */
  lemma TrimSpaceDropsTrailing(s: seq<char>)
    ensures forall i :: TrimOffset(s) + |TrimSpace(s)| <= i < |s| ==> IsSpace(s[i])
  {
    var l := TrimLeft(s);
    var o := |s| - |l|;
    var n := |TrimRight(l)|;
    TrimRightDropsSpace(l);
    TrimLeftIsSuffix(s);
    forall i | o + n <= i < |s| ensures IsSpace(s[i]) {
      var j := i - o;
      assert n <= j < |l| && l[j] == s[i];
    }
  }

  /** A slice of a suffix is a slice of the whole. */
  lemma SliceOfSlice<T>(s: seq<T>, a: nat, b: nat)
    requires a + b <= |s|
    ensures s[a..][..b] == s[a..a + b]
  {
  }

  /** A trimmed line followed by a newline trims back to the line. */
  lemma TrimSpaceOfTerminated(l: seq<char>)
    requires l != [] && Trimmed(l)
    ensures TrimSpace(l + ['\n']) == l
  {
    var s := l + ['\n'];
    assert TrimLeft(s) == s;
    assert s[..|s| - 1] == l;
    assert TrimRight(s) == TrimRight(l);
  }

  /**
   * When `s` ends in white space, its trimmed form is a slice that stops
   * before the last rune.
   */
  lemma TrimSpaceDropsLast(s: seq<char>)
    requires s != [] && IsSpace(s[|s| - 1])
    ensures TrimSpace(s) == [] || TrimOffset(s) + |TrimSpace(s)| <= |s| - 1
  {
    TrimSpaceIsSlice(s);
    var l := TrimLeft(s);
    var r := TrimRight(l);
    TrimRightEnd(l);
    TrimLeftIsSuffix(s);
    TrimRightIsPrefix(l);
    if r != [] {
      assert l != [] && l[|l| - 1] == s[|s| - 1];
      assert r[|r| - 1] == l[|r| - 1];
    }
  }

  /** Simple case folding of ASCII letters (upper case to lower case). */
  function FoldCase(c: char): char {
    if 'A' <= c <= 'Z' then (c as int + 32) as char else c
  }

  /** Two runes are equal, or equal up to case when `fold` is set. */
  predicate SameRune(a: char, b: char, fold: bool) {
    a == b || (fold && FoldCase(a) == FoldCase(b))
  }

  /** `pat` occurs in `text` at offset `i`. */
  predicate MatchAt(text: seq<char>, pat: seq<char>, i: int, fold: bool) {
    0 <= i && i + |pat| <= |text| &&
    forall j :: 0 <= j < |pat| ==> SameRune(text[i + j], pat[j], fold)
  }

  /** The first occurrence of `pat` in `text` at or after `from`, or -1. */
  function FirstIndexFrom(text: seq<char>, pat: seq<char>, fold: bool, from: nat): (r: int)
    decreases |text| + 1 - from
    ensures r == -1 || (from <= r && MatchAt(text, pat, r, fold))
    ensures forall i :: from <= i && (r == -1 || i < r) ==> !MatchAt(text, pat, i, fold)
  {
    if from + |pat| > |text| then -1
    else if MatchAt(text, pat, from, fold) then from
    else FirstIndexFrom(text, pat, fold, from + 1)
  }

  /** runes.IndexAllEx: the offset of the first occurrence of `pat` in `text`, or -1. */
  function FirstIndex(text: seq<char>, pat: seq<char>, fold: bool): (r: int)
    ensures r == -1 || MatchAt(text, pat, r, fold)
    ensures forall i :: 0 <= i && (r == -1 || i < r) ==> !MatchAt(text, pat, i, fold)
  {
    FirstIndexFrom(text, pat, fold, 0)
  }

  /** The last occurrence of `pat` in `text` at or before `upto`, or -1. */
  function LastIndexUpTo(text: seq<char>, pat: seq<char>, fold: bool, upto: int): (r: int)
    decreases upto + 1
    ensures r == -1 || (r <= upto && MatchAt(text, pat, r, fold))
    ensures forall i :: r < i <= upto ==> !MatchAt(text, pat, i, fold)
  {
    if upto < 0 then -1
    else if MatchAt(text, pat, upto, fold) then upto
    else LastIndexUpTo(text, pat, fold, upto - 1)
  }

  /** runes.IndexAllBckEx: the offset of the last occurrence of `pat` in `text`, or -1. */
  function LastIndex(text: seq<char>, pat: seq<char>, fold: bool): (r: int)
    ensures r == -1 || MatchAt(text, pat, r, fold)
    ensures forall i :: r < i ==> !MatchAt(text, pat, i, fold)
  {
    LastIndexUpTo(text, pat, fold, |text| - |pat|)
  }

  /** A match inside a suffix of `text` is a match in `text`, shifted by the suffix's offset. */
  lemma MatchInSuffix(text: seq<char>, pat: seq<char>, k: nat, i: int, fold: bool)
    requires k <= |text|
    ensures MatchAt(text[k..], pat, i, fold) <==> (i >= 0 && MatchAt(text, pat, i + k, fold))
  {
    if i >= 0 && i + |pat| <= |text| - k {
      assert forall j :: 0 <= j < |pat| ==> (SameRune(text[k..][i + j], pat[j], fold) <==> SameRune(text[i + k + j], pat[j], fold));
    }
  }

  /** A match inside a prefix of `text` is a match in `text` that ends within the prefix. */
  lemma MatchInPrefix(text: seq<char>, pat: seq<char>, k: nat, i: int, fold: bool)
    requires k <= |text|
    ensures MatchAt(text[..k], pat, i, fold) <==> (MatchAt(text, pat, i, fold) && i + |pat| <= k)
  {
    if 0 <= i && i + |pat| <= k {
      assert forall j :: 0 <= j < |pat| ==> (SameRune(text[..k][i + j], pat[j], fold) <==> SameRune(text[i + j], pat[j], fold));
    }
  }

  /** With folding, "FOO" is found in "foo2"; without it, it is not. */
  lemma FoldDecidesCase()
    ensures FirstIndex("foo2", "FOO", true) == 0
    ensures FirstIndex("foo2", "FOO", false) == -1
  {
    assert MatchAt("foo2", "FOO", 0, true);
    assert "foo2"[0] == 'f' && "foo2"[1] == 'o' && "FOO"[0] == 'F';
    assert !MatchAt("foo2", "FOO", 0, false);
    assert !MatchAt("foo2", "FOO", 1, false);
  }
}

=== FILE: seqs.dfy ===
/** Small facts about sequences that several proofs step through. */
module Seqs {

  /** A non-empty sequence is its front followed by its last element. */
  lemma SplitLast<T>(xs: seq<T>)
    requires xs != []
    ensures xs[..|xs| - 1] + [xs[|xs| - 1]] == xs
  {
  }

  /** Concatenation is associative. */
  lemma ConcatAssoc<T>(a: seq<T>, b: seq<T>, c: seq<T>)
    ensures (a + b) + c == a + (b + c)
  {
  }
}

=== FILE: startup.dfy ===
/**
 * The two halves together: a new store whose writer is the history file
 * loads the log and pushes what it reads (initHistory over historyFile.Load).
 */
module Startup {
  import opened LogFormat
  import opened HistoryLog
  import opened HistoryModel

  /** The state newOpHistory creates: no items, no cursor, version 0. */
  const Empty := Store([], Nil, 0)

  /** The newest `limit` lines kept from the records of the log, in file order. */
  function Newest(files: FileSystem, fn: Path, limit: int): seq<seq<char>>
    requires fn in files
  {
    var kept := KeptLines(Records(files[fn]));
    kept[|kept| - Kept(|kept|, limit)..]
  }

  /** A fault-free Load with a positive limit returns the newest lines that fit. */
  lemma LoadReturnsNewest(files: FileSystem, fn: Path, limit: int)
    requires limit > 0 && fn in files
    ensures LoadSpec(files, fn, limit, NoReadFaults).lines == Newest(files, fn, limit)
    ensures |Newest(files, fn, limit)| <= limit
  {
    var kept := KeptLines(Records(files[fn]));
    LoadWhole(files, fn, limit);
    if |kept| <= limit {
      assert kept[0..] == kept;
    }
  }

  /**
   * Starting from an existing log without faults and with a positive limit,
   * the store holds the newest `limit` kept lines of the log in file order,
   * then the empty placeholder under the cursor, and each line shows itself.
   */
  lemma StartFromLog(files: FileSystem, fn: Path, limit: int)
    requires limit > 0 && fn in files
    ensures var newest := Newest(files, fn, limit);
      var r := AfterInit(Empty, LoadSpec(files, fn, limit, NoReadFaults).lines, limit);
      && Sources(r.items) == newest + [[]]
      && r.cursor == At(|newest|) && r.ver == 1
      && forall j :: 0 <= j < |newest| ==> Show(r.items[j], r.ver) == newest[j]
  {
    LoadReturnsNewest(files, fn, limit);
    InitFromLog(Empty, Newest(files, fn, limit), limit);
  }
}
